=== FILE: README.md ===
# Recipe backend core in Dafny

This project models the core of a Django recipe-sharing backend: its data model
and the small pieces of logic that sit on top of it.

- **Shopping list.** The `download_shopping_cart` action collects the ingredient
  rows of every recipe in a user's cart. It folds them into a `Counter` keyed by
  (ingredient name, measurement unit) and renders one line per key.
- **Cart and favourite membership.** `create_instance` / `delete_instance` add
  and remove (user, recipe) rows. The subscribe action does the same for
  (user, author) rows.
- **Recipe writing.** The recipe write serializer runs its field checks and
  `validate`. The generated `name` and `text` fields strip surrounding
  whitespace and refuse a blank value. `add_ingredients` creates one row per submitted ingredient.
  `create` and `update` save the recipe, and `update` replaces all of its
  ingredient rows.
- **Subscriptions.** The subscription serializer has a self-subscription check,
  a `recipes` field cut by the `recipes_limit` query parameter, and a
  `recipes_count` field.
- **Viewer flags.** `is_subscribed`, `is_favorited` and `is_in_shopping_cart`
  are false for an anonymous viewer.
- **Schema invariants.** The invariants of the recipe models are: unique
  composite keys, amount and cooking time of at least 1, unique tag name, colour
  and slug, and column lengths.

The database is a `Models.Store` value. It holds one sequence of rows per table,
in the order the rows were inserted (ascending id), and every insert appends.
A query whose model orders it newest first reads the sequence from the end:
recipes by `-pub_date` and ingredient rows by `-id`
(backend/recipes/models.py:74 and 102). Every ORM call becomes a pure function on
those sequences. A failing lookup or check becomes a `Result` failure that names
the error: an HTTP 404, a validation error, or a database refusal.

Modules:

| file | module | content |
|---|---|---|
| wrappers.dfy | Wrappers | `Option`, `Result`, `Outcome` |
| sequences.dfy | Sequences | `Distinct`, `IndexOf` and facts about them |
| models.dfy | Models | one datatype per table, the schema constraints as predicates, `Valid(store)` |
| decimal.dfy | Decimal | `str()` of a natural number, and `int()` of query-string text |
| aggregation.dfy | Aggregation | the (name, unit) counter as a fold, and the loop that builds it |
| shopping_list.dfy | ShoppingList | cart rows to counter to text document |
| links.dfy | Links | `create_instance` / `delete_instance` and the cart and favourite actions |
| text.dfy | Text | `str.strip()` and the whitespace it removes |
| recipe_write.dfy | RecipeWrite | field checks, `validate`, `add_ingredients`, `create`, `update` |
| subscriptions.dfy | Subscriptions | subscribe / unsubscribe, `validate`, `get_recipes`, `get_recipes_count` |
| viewer_flags.dfy | ViewerFlags | the per-viewer boolean flags |

The `Counter` is a sequence of `Line`s with pairwise distinct keys, in insertion
order. `Aggregation.Aggregate` is the left fold of `counter[key] += amount`, and
`SumFor`, `CountOf` and `FirstOccurrence` give independent reference definitions.
`Aggregation.CompressIngredients` builds the counter the way the view's loop
does, with a dictionary plus its key order. It is proved to produce the same lines.

## Model

| member | source | states |
|---|---|---|
| Models.Valid | backend/recipes/models.py:8-183 | a store keeps the schema: tag name, colour and slug fit their columns and are each unique; ingredient name and unit fit their columns; a recipe's name fits 255 characters, its cooking time is at least 1 and its tags exist; ingredient amounts lie in [1, 32767] and a recipe lists an ingredient once; favourite and cart pairs are unique; every foreign key resolves; subscription pairs are unique |
| Models.FindIngredient | backend/api/views.py:152-154 | the ingredient lookup by id finds a row exactly when some row has that id, and the row it returns has that id |
| Decimal.NatToString | backend/api/views.py:157 | the amount is rendered as a non-empty run of decimal digits with no leading zero |
| Decimal.ParseNat | backend/api/serializers.py:275 | text parses as a natural number exactly when it is a non-empty run of digits |
| Decimal.ParseNatToString | backend/api/views.py:157 | a rendered amount reads back as the same number |
| Decimal.NatToStringOfCanonical | backend/api/views.py:157 | every digit string without a leading zero is the rendering of the number it denotes, so rendering is a bijection onto canonical digit strings |
| Decimal.ParseInt | backend/api/serializers.py:275 | `int()` accepts exactly an optional sign followed by at least one digit |
| Decimal.ParseIntOfRendering | backend/api/serializers.py:275 | `int(str(n)) == n` and `int("-" + str(n)) == -n` |
| Aggregation.Accumulate | backend/api/views.py:153-155 | one `counter[key] += amount` keeps the key order and the number of entries when the key is known, and appends one entry holding the amount when it is new |
| Aggregation.Aggregate | backend/api/views.py:151-155 | the counter built from the rows has at most one entry per row and never two entries for the same key |
| Aggregation.AccumulateCount | backend/api/views.py:153-155 | one `counter[key] += amount` raises that key's count by the amount and leaves every other key's count unchanged |
| Aggregation.AccumulateKeys | backend/api/views.py:153-155 | a known key keeps the key order; a new key is appended at the end |
| Aggregation.AccumulateGrandTotal | backend/api/views.py:153-155 | one step adds exactly the row's amount to the sum of all totals |
| Aggregation.AggregateDistinct | backend/api/views.py:151-155 | the counter never holds two entries for the same (name, unit) key |
| Aggregation.AggregateKeys | backend/api/views.py:151-162 | a key has a line exactly when some cart row carries it |
| Aggregation.AggregateCounts | backend/api/views.py:152-155 | for every key, the counter holds exactly the sum of the amounts of the rows with that key |
| Aggregation.AggregateLineTotals | backend/api/views.py:152-161 | every output line's total is the exact sum over the rows with its key |
| Aggregation.AggregateGrandTotal | backend/api/views.py:152-155 | the totals of all lines add up to the sum of all row amounts |
| Aggregation.AggregateOrder | backend/api/views.py:151-162 | lines appear in the order in which their keys first occur among the rows |
| Aggregation.AggregateMembership | backend/api/views.py:151-162 | a line is in the output exactly when its key occurs among the rows and its total is that key's sum |
| Aggregation.SumForPermutation | backend/api/views.py:152-155 | a per-key sum does not depend on the order of the rows |
| Aggregation.AggregatePermutation | backend/api/views.py:152-155 | permuting the rows yields the same multiset of lines |
| Aggregation.AggregateSeparatesUnits | backend/api/views.py:154 | two units under one name get two different lines, each with its own sum |
| Aggregation.ExampleCounter | backend/api/views.py:151-155 | rows flour 200, egg 2, flour 150, sugar 50 under three different keys give the lines flour 350, egg 2, sugar 50, in that order |
| Aggregation.Items | backend/api/views.py:161 | listing the counter's items follows its key order |
| Aggregation.CompressIngredients | backend/api/views.py:151-155 | the dictionary-and-loop construction produces exactly the fold's lines |
| ShoppingList.FormatLine | backend/api/views.py:156-160 | a rendered line starts with "- ", ends with a line break and is at least 7 characters longer than the name and the unit together |
| ShoppingList.Document | backend/api/views.py:156-164 | the document is empty exactly when the counter is, and has at least 7 characters per entry |
| ShoppingList.Collect | backend/api/views.py:148-154 | the query yields exactly one item per ingredient row of one of the recipes, and an item occurs exactly when some such row reads as it: that row's ingredient's (name, unit) and the row's amount |
| ShoppingList.CartRecipes | backend/api/views.py:149 | a recipe is in the user's cart exactly when the (user, recipe) cart row exists |
| ShoppingList.CartItems | backend/api/views.py:148-154 | one item per ingredient row of a recipe in the user's cart, and an item occurs exactly when such a row reads as it; none when the cart is empty |
| ShoppingList.ShoppingListLines | backend/api/views.py:148-162 | the list has one line per (name, unit) key found in the cart rows, no key twice, and each line's total is the sum over the cart rows with its key |
| ShoppingList.DownloadShoppingCart | backend/api/views.py:147-164 | the downloaded text is empty exactly when the list has no line, and has at least 7 characters per line |
| ShoppingList.FormatLineParts | backend/api/views.py:157 | a line is "- ", the name, ": ", the total in decimal (which reads back), " ", the unit and a line break |
| ShoppingList.DocumentLineCount | backend/api/views.py:156-164 | the document has exactly one line break per counter entry when no name or unit holds one |
| ShoppingList.ValidStoreResolves | backend/api/views.py:148-154 | in a store that keeps its constraints, every ingredient row resolves to its ingredient |
| ShoppingList.EmptyCartEmptyList | backend/api/views.py:148-162 | an empty cart gives no lines and an empty document |
| ShoppingList.CollectSplit | backend/api/views.py:148-150 | the rows of the recipes in S + {pk} sum, key by key, to those of S plus those of pk |
| ShoppingList.AddToCartAddsRecipe | backend/api/views.py:138-155 | putting a recipe in the cart raises each key's total by exactly that recipe's amount for the key |
| ShoppingList.AddToCartOtherUsers | backend/api/views.py:148-150 | another user's document is unchanged by a cart addition |
| ShoppingList.CartRoundTrip | backend/api/views.py:138-141 | adding a recipe and removing it again restores the store and the document |
| Links.CreateInstance | backend/api/views.py:112-116 | the insert succeeds exactly when the target exists and the pair is absent; a missing target is a 404; success adds exactly the pair |
| Links.DeleteInstance | backend/api/views.py:118-121 | the pair is gone afterwards and every other row keeps its multiplicity |
| Links.AddToCart | backend/api/views.py:138-140 | POST on `shopping_cart` succeeds exactly when the recipe exists and is not yet in the user's cart; a missing recipe is a 404; success adds exactly that cart row and touches no other table |
| Links.RemoveFromCart | backend/api/views.py:138-141 | DELETE on `shopping_cart` leaves the pair out of the cart, keeps every other cart row's multiplicity and touches no other table |
| Links.AddFavorite | backend/api/views.py:128-130 | POST on `favorite` succeeds exactly when the recipe exists and is not yet a favourite of the user; a missing recipe is a 404; success adds exactly that favourite row and touches no other table |
| Links.RemoveFavorite | backend/api/views.py:128-131 | DELETE on `favorite` leaves the pair out of the favourites, keeps every other favourite row's multiplicity and touches no other table |
| Links.DeleteKeepsOthers | backend/api/views.py:118-121 | a row survives deletion exactly when it was there and is not the deleted pair |
| Links.DeleteAbsent | backend/api/views.py:118-121 | deleting an absent pair changes nothing |
| Links.DeleteIdempotent | backend/api/views.py:118-121 | deleting twice is deleting once |
| Links.CreateThenDelete | backend/api/views.py:112-121 | creating then deleting a pair restores the table |
| Links.DeleteThenCreate | backend/api/views.py:112-121 | after a delete, creating the pair for an existing target succeeds |
| Links.LinkOperationsPreserveValid | backend/recipes/models.py:129-133 | create and delete keep pairs unique and targets existing |
| Links.MembershipPreservesValid | backend/recipes/models.py:179-183 | the cart and favourite actions keep every schema constraint of the store |
| RecipeWrite.CheckTags | backend/api/serializers.py:155-157 | the tag field passes exactly when every submitted tag id names a tag; otherwise it reports a missing id |
| Text.Trim | backend/api/serializers.py:160-163 | stripping keeps the run after the leading whitespace, with no whitespace at either end, and cuts only whitespace away; nothing is left exactly when the text is all whitespace |
| Text.TrimIdempotent | backend/api/serializers.py:160-163 | stripping a stripped text changes nothing |
| Text.TrimUnpadded | backend/api/serializers.py:160-163 | a text with no whitespace at either end is kept as it is |
| Text.TrimKeepsAbsent | backend/api/serializers.py:160-163 | stripping adds no character: one absent from the text is absent from the stripped text |
| Text.TrimStable | backend/api/serializers.py:160-163 | a text that is not blank strips to a non-blank text that stripping leaves alone |
| RecipeWrite.CheckFields | backend/recipes/models.py:48-66 | the field stage passes exactly when the name and the text are not blank and hold no null character, the stripped name fits 255 characters, cooking time is at least 1 and every tag exists |
| RecipeWrite.Stripped | backend/api/serializers.py:160-163 | the value handed on keeps the ingredients, tags and cooking time; its name and text are stripped, no longer than before, and empty exactly when the submitted ones are blank |
| RecipeWrite.StrippedFieldsPass | backend/api/serializers.py:160-163 | the stripped name and text of accepted fields pass the field stage again, are non-empty and have no whitespace at either end |
| RecipeWrite.Validate | backend/api/serializers.py:165-186 | on success `validate` returns its input unchanged |
| RecipeWrite.CheckIngredients | backend/api/serializers.py:169-175 | the ingredient loop fails only with a repeated ingredient or with a 404 for a submitted id that names no ingredient |
| RecipeWrite.CheckIngredientsPass | backend/api/serializers.py:169-175 | the ingredient loop passes exactly when every id exists and no id repeats |
| RecipeWrite.ValidateAccepts | backend/api/serializers.py:165-186 | `validate` accepts exactly when every ingredient exists, the ids are pairwise different and there is at least one tag |
| RecipeWrite.ValidateReportsDuplicateFirst | backend/api/serializers.py:169-180 | a repeated ingredient is reported even if the tag list is also empty |
| RecipeWrite.ValidateRejectsNoTags | backend/api/serializers.py:177-180 | sound ingredients with no tags are refused for the missing tags |
| RecipeWrite.IsValid | backend/api/serializers.py:88-97 | the check as written accepts exactly when the field stage passes and `validate` accepts; no amount is checked; it hands on the data with name and text stripped |
| RecipeWrite.IsValidIgnoresAmounts | backend/api/serializers.py:91-92 | two payloads that differ only in their amounts are accepted or refused together by the check as written |
| RecipeWrite.CheckAmounts | backend/recipes/models.py:89-97 | passes exactly when every amount lies in [1, 32767] |
| RecipeWrite.IsValidChecked | backend/recipes/models.py:89-97 | the corrected check accepts exactly when the field stage passes, every amount lies in [1, 32767] and `validate` accepts; it hands on the data with name and text stripped |
| RecipeWrite.ValidatedDataIsStable | backend/api/serializers.py:200-217 | what the checked validation hands to `create` and `update` is accepted again unchanged, and its name and text are non-blank and stripped, the name within 255 characters |
| RecipeWrite.LookUpIngredients | backend/api/serializers.py:190-197 | the lookups pass exactly when every submitted id names an ingredient; otherwise they fail on a submitted id that names none |
| RecipeWrite.AddIngredients | backend/api/serializers.py:188-198 | succeeds exactly when every submitted id names an ingredient, every amount fits the column and no ingredient repeats; an unknown id fails the lookup before anything is inserted; on success one row per submitted item, for this recipe, carrying that item's id and amount |
| RecipeWrite.RowsOf | backend/api/serializers.py:214 | a recipe's rows are exactly the table rows pointing at it |
| RecipeWrite.Without | backend/api/serializers.py:214 | clearing a recipe's ingredients keeps exactly the rows of other recipes |
| RecipeWrite.UpdateFields | backend/api/serializers.py:211-213 | the updated recipe gets the new name, text, cooking time and tags; every other recipe is unchanged |
| RecipeWrite.NewRecipe | backend/api/serializers.py:203-204 | the written recipe row carries the given id and author, the submitted name, text and cooking time, and exactly the submitted tags |
| RecipeWrite.CreateRecipe | backend/api/serializers.py:200-206 | `create` fails exactly when `add_ingredients` fails: an unknown ingredient id fails its lookup, otherwise the database refuses; on success only the recipe and ingredient-row tables change, by one recipe and by one row per submitted ingredient |
| RecipeWrite.UpdateRecipe | backend/api/serializers.py:208-217 | `update` fails exactly when `add_ingredients` fails: an unknown ingredient id fails its lookup, otherwise the database refuses; on success only the recipe and ingredient-row tables change, and the number of recipes stays the same |
| RecipeWrite.UpdateReplacesIngredients | backend/api/serializers.py:208-217 | after `update` the recipe's rows are exactly those built from the submitted list; every other recipe keeps its rows |
| RecipeWrite.UpdateSetsFields | backend/api/serializers.py:208-217 | after `update` the recipe has exactly the new tags, name, text and cooking time, the same author, and no other recipe or table changes |
| RecipeWrite.CreateAddsRecipe | backend/api/serializers.py:200-206 | `create` appends the recipe with the submitted fields and tags and grows the recipe ids by its id |
| RecipeWrite.CreateAddsIngredients | backend/api/serializers.py:200-206 | after `create` the new recipe's rows are exactly those built from the submitted list; no other recipe's rows change |
| RecipeWrite.NewRowsValid | backend/recipes/models.py:89-107 | rows built from checked data have valid amounts, unique pairs and existing ingredients |
| RecipeWrite.RecipeIdsAfterUpdate | backend/api/serializers.py:211 | `update` keeps the set of recipe ids |
| RecipeWrite.UpdateKeepsStoreValid | backend/api/serializers.py:208-217 | updating with the value the checked validation hands on succeeds and keeps every schema constraint |
| RecipeWrite.CreateKeepsStoreValid | backend/api/serializers.py:200-206 | creating with the value the checked validation hands on succeeds and keeps every schema constraint |
| RecipeWrite.ZeroAmountAccepted | backend/api/serializers.py:92 | the check as written accepts amount 0, and `create` then stores a row that breaks the amount >= 1 constraint |
| RecipeWrite.ZeroAmountRefused | backend/recipes/models.py:92-94 | the corrected check refuses any amount below 1 |
| Subscriptions.SubscribeAsWritten | backend/api/views.py:52-59 | the action as written succeeds exactly when the author exists and the pair is new, with no self check |
| Subscriptions.ValidateSubscription | backend/api/serializers.py:260-268 | the intended check fails exactly when user and author are the same |
| Subscriptions.Subscribe | backend/api/serializers.py:260-268 | the corrected action: a missing author is a 404, a self-subscription is refused, and otherwise exactly the pair is added |
| Subscriptions.Unsubscribe | backend/api/views.py:53-61 | a missing author is a 404; otherwise only the subscription table changes, the pair is gone and every other pair keeps its multiplicity |
| Subscriptions.SelfSubscriptionAccepted | backend/api/views.py:52-59 | as written, any existing user subscribes to themself and the table then holds a self-subscription |
| Subscriptions.SubscribeAgreesOtherwise | backend/api/views.py:52-59 | the corrected action agrees with the action as written whenever user and author differ |
| Subscriptions.SubscriptionsPreserveInvariants | backend/recipes/models.py:160-164 | the corrected subscribe and the unsubscribe keep pairs unique and the table free of self-subscriptions |
| Subscriptions.SubscribeThenUnsubscribe | backend/api/views.py:52-61 | subscribing then unsubscribing restores the store |
| Subscriptions.ValidateAsWritten | backend/api/serializers.py:260-263 | the comparison as written fires only when the instance is the request user itself |
| Subscriptions.ValidateAsWrittenMissesSelf | backend/api/serializers.py:260-263 | given a Subscribe row of a user to themself, the comparison as written passes |
| Subscriptions.AuthorRecipes | backend/api/serializers.py:273 | the author's recipes are exactly the recipes with that author |
| Subscriptions.NewestRecipeFirst | backend/recipes/models.py:71-74 | a recipe created after the others heads its author's list, ahead of the earlier ones, and no other author's list changes |
| Subscriptions.LimitOneShowsNewest | backend/api/serializers.py:270-277 | `recipes_limit=1` lists exactly the author's most recently created recipe |
| Subscriptions.RecipesCount | backend/api/serializers.py:284-285 | `recipes_count` is at most the number of recipes, and zero exactly when no recipe has that author |
| Subscriptions.RecipesCountIsLength | backend/api/serializers.py:284-285 | `recipes_count` is the number of recipes `recipes` lists without a limit |
| Subscriptions.GetRecipes | backend/api/serializers.py:270-277 | fails exactly for a present, non-empty limit that is not an integer or is negative; otherwise a prefix of the author's recipes, newest first, of length min(int(limit), count), or all of them without a limit |
| Subscriptions.GetRecipesUnlimited | backend/api/serializers.py:272-274 | with no limit, or an empty one, all `recipes_count` recipes are listed |
| Subscriptions.GetRecipesLimited | backend/api/serializers.py:274-275 | with limit n the list has min(n, count) recipes |
| Subscriptions.GetRecipesNegative | backend/api/serializers.py:275 | a negative limit is an error |
| Subscriptions.GetRecipesMonotone | backend/api/serializers.py:274-275 | a larger limit lists a longer prefix of the same list |
| ViewerFlags.HasLink | backend/api/serializers.py:37 | `.exists()` is membership of the pair |
| ViewerFlags.IsSubscribed | backend/api/serializers.py:33-37 | false for an anonymous viewer; otherwise true exactly when the subscription row exists |
| ViewerFlags.IsFavorited | backend/api/serializers.py:134-138 | false for an anonymous viewer; otherwise true exactly when the favourite row exists |
| ViewerFlags.IsInShoppingCart | backend/api/serializers.py:140-147 | false for an anonymous viewer; otherwise true exactly when the cart row exists |
| ViewerFlags.CartFlagFollowsActions | backend/api/views.py:138-141 | the cart flag is on after adding, off after removing, and no other (viewer, recipe) flag moves |
| ViewerFlags.FavoriteFlagFollowsActions | backend/api/views.py:128-131 | the favourite flag is on after adding, off after removing, and no other flag moves |
| ViewerFlags.SubscribedFlagFollowsActions | backend/api/views.py:52-61 | with the serializer's `validate` (backend/api/serializers.py:260-268) applied, the subscription flag is on after subscribing and off after unsubscribing |

## Left out

- HTTP plumbing is left out: responses, status codes, `Content-Disposition`, permission classes and pagination. Every failure is a named `Result` error instead.
- Authentication, the djoser user serializers and views, and registration are left out. A user is a natural-number id, and a set of user ids stands in for the user table.
- The image field and its base64 decoding are left out. It is a foreign library, and no modelled property depends on it.
- The tag lookup by name inside `validate` (backend/api/serializers.py:181-185) is not modelled. It compares names with `Tag` objects, so its outcome depends on ORM coercion. Tag existence is modelled by the field stage instead.
- Recipes created in the same instant share a `pub_date`, and the database may then return them in either order. The model lists them newest insert first. The `name` ordering of ingredients (backend/recipes/models.py:31) and the `-id` ordering of tags (backend/recipes/models.py:18) are not modelled, since no modelled output lists either table.
- ShoppingList.Collect treats the cart join as a filter, "the recipe is in the user's cart". Each row is counted once. This matches the join whenever the cart's (user, recipe) pair is unique.
- Decimal.ParseInt does not accept the surrounding whitespace, the digit-group underscores or the non-ASCII Unicode decimal digits (such as Arabic-Indic digits) that Python's `int()` tolerates.
- Subscriptions.GetRecipes has no upper bound on the limit. The source turns `recipes[:int(limit)]` (backend/api/serializers.py:275) into an SQL `LIMIT`, and the database refuses a limit above its 64-bit range (2^63 - 1) with a server error. The model lists every recipe of the author for such a limit.
- RecipeWrite.CheckFields does not model the upper bound of the cooking-time column. Nothing downstream depends on it.
- RecipeWrite.IngredientAmount carries the ingredient id as a natural number. The source's id field is a plain integer field (backend/api/serializers.py:91), so it accepts a negative id, and the lookup in `validate` (backend/api/serializers.py:170) then answers it with a 404. The model has no negative id to submit.
- RecipeWrite.RecipeData always carries both `ingredients` and `tags`. A partial update (PATCH through the model view set, backend/api/views.py:95) without either raises a `KeyError` at backend/api/serializers.py:166, 177 or 209-210, a server error. The model has no such request.
- RecipeWrite.AddIngredients reports only the first database refusal.
- RecipeWrite.CreateRecipe and RecipeWrite.UpdateRecipe take tags that all exist. The tag field (backend/api/serializers.py:155-157) hands them `Tag` objects, so the source cannot reach them with an unknown tag.
- RecipeWrite.AddIngredients names an unknown ingredient id with its own error. In the source, `Ingredient.objects.get` (backend/api/serializers.py:192) raises `DoesNotExist`, a server error. `validate` already answers an unknown id with a 404, so only a write that skips `validate` meets this.
- RecipeWrite.CreateRecipe and RecipeWrite.UpdateRecipe return only the error when `add_ingredients` fails, with no store. The source has no transaction, so its earlier writes stay. A failed `create` leaves the new recipe with its tags and no ingredient rows (backend/api/serializers.py:203-205). A failed `update` leaves the new fields and tags with the recipe's old rows already cleared (backend/api/serializers.py:211-215). The check as written lets a negative amount reach this refusal.
- RecipeWrite.CheckFields and RecipeWrite.CheckIngredients report the first failing check, where the serializer framework collects every field error.
- The database range of the amount column is taken as [0, 32767], a positive small integer. Backends differ in the exact bound.
- Recipe ids in `create` are a parameter that must be fresh. The database's id sequence is not modelled.
- The `subscriptions` listing (backend/api/views.py:63-72) is not modelled. It is a filter by user with pagination.
- `SubscribeSerializer.get_is_subscribed` (backend/api/serializers.py:279-282) is not modelled. It is always true for the row being serialized.
- Concurrency and transaction isolation are left out.
- backend/api/filters.py and backend/recipes/admin.py are not part of this model. They are declarative query filters and admin configuration.

## Findings

| source | as written | input that shows it | evidently intended | confidence | as-written member | corrected member |
|---|---|---|---|---|---|---|
| backend/api/views.py:52-59 | POST on the subscribe action creates the Subscribe row straight after the author lookup. The serializer is built from that row and never validated. Its `validate` compares the request user with `self.instance`, which is a Subscribe row, so the comparison could not fire anyway | user 1 POSTs to subscribe to user 1 | a user cannot subscribe to themself | not executed | Subscriptions.SubscribeAsWritten, Subscriptions.SelfSubscriptionAccepted, Subscriptions.ValidateAsWrittenMissesSelf | Subscriptions.Subscribe, Subscriptions.SubscriptionsPreserveInvariants |
| backend/api/serializers.py:92 | the ingredient serializer declares `amount` as a plain integer field. This drops the model's minimum-1 validator, and the bulk insert does not run model validators. The column itself only refuses negatives | a recipe with ingredient `{"id": 1, "amount": 0}` | every ingredient amount is at least 1 | not executed | RecipeWrite.IsValid, RecipeWrite.ZeroAmountAccepted | RecipeWrite.IsValidChecked, RecipeWrite.ZeroAmountRefused, RecipeWrite.CreateKeepsStoreValid, RecipeWrite.UpdateKeepsStoreValid |

=== FILE: aggregation.dfy ===
/** The shopping-list fold of `download_shopping_cart`: every ingredient row
    reachable through a cart is added into a counter keyed by the pair
    (ingredient name, measurement unit). The counter is modelled as a sequence
    of lines with distinct keys in insertion order, which is how a Python
    `Counter` enumerates its items. */
module Aggregation {
  import opened Sequences

  /** Ingredient identity on a shopping list: name and unit, compared exactly. */
  datatype Key = Key(name: string, unit: string)

  /** One (ingredient name, measurement unit, amount) row reachable through a cart. */
  datatype Item = Item(key: Key, amount: nat)

  /** One counter entry: a key and the total counted for it. */
  datatype Line = Line(key: Key, total: nat)

  function ItemKeys(items: seq<Item>): (ks: seq<Key>)
    ensures |ks| == |items|
    ensures forall i | 0 <= i < |items| :: ks[i] == items[i].key
  {
    seq(|items|, i requires 0 <= i < |items| => items[i].key)
  }

  function LineKeys(lines: seq<Line>): (ks: seq<Key>)
    ensures |ks| == |lines|
    ensures forall i | 0 <= i < |lines| :: ks[i] == lines[i].key
  {
    seq(|lines|, i requires 0 <= i < |lines| => lines[i].key)
  }

  /** No key has two lines. */
  predicate DistinctKeys(lines: seq<Line>) {
    Distinct(LineKeys(lines))
  }

  /** Reference definition: the sum of the amounts of the rows whose key is `k`. */
  function SumFor(items: seq<Item>, k: Key): nat {
    if |items| == 0 then 0
    else SumFor(items[..|items| - 1], k) + (if items[|items| - 1].key == k then items[|items| - 1].amount else 0)
  }

  /** The sum of every row's amount. */
  function Total(items: seq<Item>): nat {
    if |items| == 0 then 0 else Total(items[..|items| - 1]) + items[|items| - 1].amount
  }

  /** The sum of every line's total. */
  function GrandTotal(lines: seq<Line>): nat {
    if |lines| == 0 then 0 else GrandTotal(lines[..|lines| - 1]) + lines[|lines| - 1].total
  }

  /** Position of the first row with key `k`, or `|items|` when there is none. */
  function FirstOccurrence(items: seq<Item>, k: Key): nat {
    IndexOf(ItemKeys(items), k)
  }

  /** What the counter holds for `k`: the total of the first line with that key,
      or zero for a key it has never seen. */
  function CountOf(lines: seq<Line>, k: Key): nat {
    var i := IndexOf(LineKeys(lines), k);
    if i < |lines| then lines[i].total else 0
  }

  /** `counter[key] += amount`: bump the line of the item's key, or append a new line for a new key. */
  function Accumulate(lines: seq<Line>, item: Item): (r: seq<Line>)
    ensures item.key in LineKeys(lines) ==> |r| == |lines| && LineKeys(r) == LineKeys(lines)
    ensures item.key !in LineKeys(lines) ==> r == lines + [Line(item.key, item.amount)]
  {
    var i := IndexOf(LineKeys(lines), item.key);
    if i < |lines| then lines[i := Line(item.key, lines[i].total + item.amount)]
    else lines + [Line(item.key, item.amount)]
  }

  /** The counter after folding every row, left to right. */
  function Aggregate(items: seq<Item>): (r: seq<Line>)
    ensures |r| <= |items|
    ensures DistinctKeys(r)
  {
    if |items| == 0 then []
    else
      var lines := Aggregate(items[..|items| - 1]);
      AccumulateDistinct(lines, items[|items| - 1]);
      Accumulate(lines, items[|items| - 1])
  }

  // ---------------------------------------------------------------------
  // One step of the fold

  lemma AccumulateKeys(lines: seq<Line>, item: Item)
    ensures item.key in LineKeys(lines) ==> LineKeys(Accumulate(lines, item)) == LineKeys(lines)
    ensures item.key !in LineKeys(lines) ==> LineKeys(Accumulate(lines, item)) == LineKeys(lines) + [item.key]
  {
  }

  lemma AccumulateDistinct(lines: seq<Line>, item: Item)
    requires DistinctKeys(lines)
    ensures DistinctKeys(Accumulate(lines, item))
  {
    AccumulateKeys(lines, item);
  }

  lemma AccumulateCount(lines: seq<Line>, item: Item, k: Key)
    ensures CountOf(Accumulate(lines, item), k) == CountOf(lines, k) + (if k == item.key then item.amount else 0)
  {
    var ks := LineKeys(lines);
    var r := Accumulate(lines, item);
    AccumulateKeys(lines, item);
    if item.key !in ks {
      if k in ks {
        IndexOfAppend(ks, [item.key], k);
      } else if k == item.key {
        IndexOfUnique(ks + [item.key], k, |ks|);
      }
    }
  }

  lemma GrandTotalUpdate(lines: seq<Line>, i: nat, l: Line)
    requires i < |lines|
    ensures GrandTotal(lines[i := l]) + lines[i].total == GrandTotal(lines) + l.total
    decreases |lines|
  {
    var n := |lines| - 1;
    if i < n {
      assert lines[i := l][..n] == lines[..n][i := l];
      GrandTotalUpdate(lines[..n], i, l);
    } else {
      assert lines[i := l][..n] == lines[..n];
    }
  }

  lemma AccumulateGrandTotal(lines: seq<Line>, item: Item)
    ensures GrandTotal(Accumulate(lines, item)) == GrandTotal(lines) + item.amount
  {
    var i := IndexOf(LineKeys(lines), item.key);
    if i < |lines| {
      GrandTotalUpdate(lines, i, Line(item.key, lines[i].total + item.amount));
    } else {
      assert (lines + [Line(item.key, item.amount)])[..|lines|] == lines;
    }
  }

  lemma SumForConcat(s: seq<Item>, t: seq<Item>, k: Key)
    ensures SumFor(s + t, k) == SumFor(s, k) + SumFor(t, k)
    decreases |t|
  {
    if |t| == 0 {
      assert s + t == s;
    } else {
      var m := |t| - 1;
      assert (s + t)[..|s + t| - 1] == s + t[..m];
      SumForConcat(s, t[..m], k);
    }
  }

  // ---------------------------------------------------------------------
  // Properties of the whole fold

  /** The counter never holds two lines for the same (name, unit) pair. */
  lemma {:induction false} AggregateDistinct(items: seq<Item>)
    ensures DistinctKeys(Aggregate(items))
  {
    if |items| > 0 {
      AggregateDistinct(items[..|items| - 1]);
      AccumulateDistinct(Aggregate(items[..|items| - 1]), items[|items| - 1]);
    }
  }

  /** A key has a line exactly when some row carries that key. */
  lemma {:induction false} AggregateKeys(items: seq<Item>)
    ensures forall k :: k in LineKeys(Aggregate(items)) <==> k in ItemKeys(items)
  {
    if |items| > 0 {
      var p := items[..|items| - 1];
      var x := items[|items| - 1];
      AggregateKeys(p);
      AccumulateKeys(Aggregate(p), x);
      assert ItemKeys(items) == ItemKeys(p) + [x.key];
    }
  }

  /** For every key, the counter holds exactly the sum of the amounts of the rows with that key. */
  lemma {:induction false} AggregateCounts(items: seq<Item>)
    ensures forall k :: CountOf(Aggregate(items), k) == SumFor(items, k)
  {
    if |items| > 0 {
      var p := items[..|items| - 1];
      var x := items[|items| - 1];
      AggregateCounts(p);
      forall k
        ensures CountOf(Aggregate(items), k) == SumFor(items, k)
      {
        AccumulateCount(Aggregate(p), x, k);
      }
    }
  }

  /** Every line's total is the exact sum of the amounts of the rows with its key. */
  lemma AggregateLineTotals(items: seq<Item>)
    ensures forall i | 0 <= i < |Aggregate(items)| :: Aggregate(items)[i].total == SumFor(items, Aggregate(items)[i].key)
  {
    var r := Aggregate(items);
    AggregateDistinct(items);
    AggregateCounts(items);
    forall i | 0 <= i < |r|
      ensures r[i].total == SumFor(items, r[i].key)
    {
      IndexOfUnique(LineKeys(r), r[i].key, i);
      assert CountOf(r, r[i].key) == r[i].total;
    }
  }

  /** Nothing is lost or invented: the totals add up to the sum of all amounts. */
  lemma {:induction false} AggregateGrandTotal(items: seq<Item>)
    ensures GrandTotal(Aggregate(items)) == Total(items)
  {
    if |items| > 0 {
      AggregateGrandTotal(items[..|items| - 1]);
      AccumulateGrandTotal(Aggregate(items[..|items| - 1]), items[|items| - 1]);
    }
  }

  /** Lines come in the order in which their keys first occur among the rows. */
  lemma {:induction false} AggregateOrder(items: seq<Item>)
    ensures forall i, j | 0 <= i < j < |Aggregate(items)| ::
      FirstOccurrence(items, Aggregate(items)[i].key) < FirstOccurrence(items, Aggregate(items)[j].key)
  {
    if |items| > 0 {
      var p := items[..|items| - 1];
      var x := items[|items| - 1];
      assert items == p + [x];
      var r' := Aggregate(p);
      var r := Aggregate(items);
      AggregateOrder(p);
      AggregateKeys(p);
      AccumulateKeys(r', x);
      forall i, j | 0 <= i < j < |r|
        ensures FirstOccurrence(items, r[i].key) < FirstOccurrence(items, r[j].key)
      {
        assert r[i].key == LineKeys(r)[i] && r[j].key == LineKeys(r)[j];
        FirstOccurrenceSnoc(p, x, r[i].key);
        FirstOccurrenceSnoc(p, x, r[j].key);
        if j < |r'| {
          assert r[i].key == r'[i].key && r[j].key == r'[j].key;
        }
      }
    }
  }

  /** Appending a row leaves the first position of every key already present,
      and a new key first occurs at the end. */
  lemma FirstOccurrenceSnoc(p: seq<Item>, x: Item, k: Key)
    ensures k in ItemKeys(p) ==> FirstOccurrence(p + [x], k) == FirstOccurrence(p, k) < |p|
    ensures k !in ItemKeys(p) && k == x.key ==> FirstOccurrence(p + [x], k) == |p|
  {
    assert ItemKeys(p + [x]) == ItemKeys(p) + [x.key];
    if k in ItemKeys(p) {
      IndexOfAppend(ItemKeys(p), [x.key], k);
    } else if k == x.key {
      IndexOfUnique(ItemKeys(p + [x]), k, |p|);
    }
  }

  /** A line belongs to the list exactly when its key occurs among the rows and
      its total is the sum for that key. */
  lemma AggregateMembership(items: seq<Item>)
    ensures forall l: Line :: l in Aggregate(items) <==> l.key in ItemKeys(items) && l.total == SumFor(items, l.key)
  {
    var r := Aggregate(items);
    AggregateKeys(items);
    AggregateLineTotals(items);
    forall l: Line | l.key in ItemKeys(items) && l.total == SumFor(items, l.key)
      ensures l in r
    {
      var i := IndexOf(LineKeys(r), l.key);
      assert r[i] == l;
    }
  }

  /** Taking one row out of a sequence takes its contribution out of the sum. */
  lemma SumForRemove(b: seq<Item>, i: nat, k: Key)
    requires i < |b|
    ensures SumFor(b, k) == SumFor(b[..i] + b[i + 1..], k) + SumFor([b[i]], k)
  {
    assert b == (b[..i] + [b[i]]) + b[i + 1..];
    SumForConcat(b[..i] + [b[i]], b[i + 1..], k);
    SumForConcat(b[..i], [b[i]], k);
    SumForConcat(b[..i], b[i + 1..], k);
  }

  lemma {:induction false} SumForPermutation(a: seq<Item>, b: seq<Item>, k: Key)
    requires multiset(a) == multiset(b)
    ensures SumFor(a, k) == SumFor(b, k)
    decreases |a|
  {
    if |a| == 0 {
      assert |b| == |multiset(b)| == 0;
    } else {
      var a' := a[..|a| - 1];
      var x := a[|a| - 1];
      assert a == a' + [x];
      assert multiset(a') == multiset(a) - multiset{x};
      assert x in multiset(b);
      var i := IndexOf(b, x);
      MultisetRemove(b, i);
      SumForPermutation(a', b[..i] + b[i + 1..], k);
      SumForRemove(b, i, k);
      assert [x][..0] == [];
    }
  }

  /** Reordering the rows reorders nothing that matters: the same lines come out. */
  lemma AggregatePermutation(items: seq<Item>, items': seq<Item>)
    requires multiset(items) == multiset(items')
    ensures multiset(Aggregate(items)) == multiset(Aggregate(items'))
  {
    var r := Aggregate(items);
    var r' := Aggregate(items');
    AggregateMembership(items);
    AggregateMembership(items');
    AggregateDistinct(items);
    AggregateDistinct(items');
    forall k
      ensures k in ItemKeys(items) <==> k in ItemKeys(items')
      ensures SumFor(items, k) == SumFor(items', k)
    {
      SumForPermutation(items, items', k);
      if k in ItemKeys(items) {
        var i := IndexOf(ItemKeys(items), k);
        assert items[i] in multiset(items');
      }
      if k in ItemKeys(items') {
        var i := IndexOf(ItemKeys(items'), k);
        assert items'[i] in multiset(items);
      }
    }
    assert Distinct(r) by {
      assert forall i, j | 0 <= i < j < |r| :: LineKeys(r)[i] != LineKeys(r)[j];
    }
    assert Distinct(r') by {
      assert forall i, j | 0 <= i < j < |r'| :: LineKeys(r')[i] != LineKeys(r')[j];
    }
    DistinctSameElements(r, r');
  }

  /** Rows that share a name but not a unit are never merged: each unit keeps a
      line of its own with its own total. */
  lemma AggregateSeparatesUnits(items: seq<Item>, name: string, unit1: string, unit2: string)
    requires Key(name, unit1) in ItemKeys(items) && Key(name, unit2) in ItemKeys(items)
    requires unit1 != unit2
    ensures exists i, j | 0 <= i < |Aggregate(items)| && 0 <= j < |Aggregate(items)| ::
      && i != j
      && Aggregate(items)[i] == Line(Key(name, unit1), SumFor(items, Key(name, unit1)))
      && Aggregate(items)[j] == Line(Key(name, unit2), SumFor(items, Key(name, unit2)))
  {
    var r := Aggregate(items);
    AggregateKeys(items);
    AggregateLineTotals(items);
    var i := IndexOf(LineKeys(r), Key(name, unit1));
    var j := IndexOf(LineKeys(r), Key(name, unit2));
    assert r[i].key != r[j].key;
  }

  lemma AggregateSnoc(items: seq<Item>, x: Item)
    ensures Aggregate(items + [x]) == Accumulate(Aggregate(items), x)
  {
    assert (items + [x])[..|items|] == items;
  }

  /** A row with a new key appends a line. */
  lemma AccumulateNew(lines: seq<Line>, item: Item)
    requires forall i | 0 <= i < |lines| :: lines[i].key != item.key
    ensures Accumulate(lines, item) == lines + [Line(item.key, item.amount)]
  {
    IndexOfUnique(LineKeys(lines), item.key, |lines|);
  }

  /** A row with the key of line `i` adds its amount to that line. */
  lemma AccumulateOld(lines: seq<Line>, item: Item, i: nat)
    requires i < |lines| && lines[i].key == item.key
    requires forall j | 0 <= j < i :: lines[j].key != item.key
    ensures Accumulate(lines, item) == lines[i := Line(item.key, lines[i].total + item.amount)]
  {
    IndexOfUnique(LineKeys(lines), item.key, i);
  }

  /** Three different keys, the first one twice: its amounts merge into the
      first line, and the others follow in order of first appearance. */
  lemma ExampleCounter(flour: Key, egg: Key, sugar: Key)
    requires flour != egg && flour != sugar && egg != sugar
    ensures Aggregate([Item(flour, 200), Item(egg, 2), Item(flour, 150), Item(sugar, 50)])
         == [Line(flour, 350), Line(egg, 2), Line(sugar, 50)]
  {
    var x0, x1, x2, x3 := Item(flour, 200), Item(egg, 2), Item(flour, 150), Item(sugar, 50);
    assert Aggregate([x0]) == [Line(flour, 200)] by {
      AggregateSnoc([], x0);
      AccumulateNew([], x0);
      assert [] + [x0] == [x0];
    }
    assert Aggregate([x0, x1]) == [Line(flour, 200), Line(egg, 2)] by {
      AggregateSnoc([x0], x1);
      AccumulateNew([Line(flour, 200)], x1);
      assert [x0] + [x1] == [x0, x1];
    }
    assert Aggregate([x0, x1, x2]) == [Line(flour, 350), Line(egg, 2)] by {
      AggregateSnoc([x0, x1], x2);
      AccumulateOld([Line(flour, 200), Line(egg, 2)], x2, 0);
      assert [x0, x1] + [x2] == [x0, x1, x2];
    }
    AggregateSnoc([x0, x1, x2], x3);
    AccumulateNew([Line(flour, 350), Line(egg, 2)], x3);
    assert [x0, x1, x2] + [x3] == [x0, x1, x2, x3];
  }

  // ---------------------------------------------------------------------
  // The loop of the view, over a hash map plus its insertion order

  /** The counter's items in insertion order. */
  function Items(order: seq<Key>, counter: map<Key, nat>): (lines: seq<Line>)
    requires forall k | k in order :: k in counter
    ensures LineKeys(lines) == order
  {
    seq(|order|, i requires 0 <= i < |order| => Line(order[i], counter[order[i]]))
  }

  /** Bumping a known key of the dictionary is `Accumulate` on its items. */
  lemma ItemsBump(order: seq<Key>, counter: map<Key, nat>, item: Item)
    requires Distinct(order)
    requires forall k :: k in counter <==> k in order
    requires item.key in order
    ensures Items(order, counter[item.key := counter[item.key] + item.amount]) == Accumulate(Items(order, counter), item)
  {
    var before := Items(order, counter);
    var i := IndexOf(order, item.key);
    var after := Items(order, counter[item.key := counter[item.key] + item.amount]);
    var bumped := before[i := Line(item.key, before[i].total + item.amount)];
    assert LineKeys(before) == order;
    assert Accumulate(before, item) == bumped;
    forall j | 0 <= j < |order|
      ensures after[j] == bumped[j]
    {
      if j != i {
        assert order[j] != order[i];
      }
    }
    assert |after| == |bumped|;
  }

  /** Entering a new key into the dictionary is `Accumulate` on its items. */
  lemma ItemsInsert(order: seq<Key>, counter: map<Key, nat>, item: Item)
    requires forall k :: k in counter <==> k in order
    requires item.key !in order
    ensures Items(order + [item.key], counter[item.key := item.amount]) == Accumulate(Items(order, counter), item)
  {
    var before := Items(order, counter);
    var after := Items(order + [item.key], counter[item.key := item.amount]);
    assert after == before + [Line(item.key, item.amount)];
  }

  /** Folds the rows into a dictionary keyed by (name, unit) that remembers
      insertion order, then lists its items: the same lines as `Aggregate`. */
  method CompressIngredients(items: seq<Item>) returns (lines: seq<Line>)
    ensures lines == Aggregate(items)
  {
    var counter: map<Key, nat> := map[];
    var order: seq<Key> := [];
    for n := 0 to |items|
      invariant Distinct(order)
      invariant forall k :: k in counter <==> k in order
      invariant Items(order, counter) == Aggregate(items[..n])
    {
      var item := items[n];
      assert items[..n + 1][..n] == items[..n];
      if item.key in counter {
        ItemsBump(order, counter, item);
        counter := counter[item.key := counter[item.key] + item.amount];
      } else {
        ItemsInsert(order, counter, item);
        AppendKeepsDistinct(order, item.key);
        counter := counter[item.key := item.amount];
        order := order + [item.key];
      }
    }
    assert items[..|items|] == items;
    lines := Items(order, counter);
  }
}

=== FILE: decimal.dfy ===
/** Decimal text for integers: Python's `str()` of a non-negative integer (used
    when a shopping-list line is rendered) and `int()` of a query-string value
    (used for `recipes_limit`). */
module Decimal {
  import opened Wrappers

  predicate IsDigit(c: char) {
    '0' <= c <= '9'
  }

  predicate AllDigits(s: string) {
    forall i | 0 <= i < |s| :: IsDigit(s[i])
  }

  function DigitChar(d: nat): (c: char)
    requires d < 10
    ensures IsDigit(c) && c as int - '0' as int == d
  {
    ('0' as int + d) as char
  }

  function DigitValue(c: char): (d: nat)
    requires IsDigit(c)
    ensures d < 10 && DigitChar(d) == c
  {
    c as int - '0' as int
  }

  /** The digits of `n` in base ten, most significant first, without leading zeros. */
  function NatToString(n: nat): (s: string)
    ensures |s| >= 1 && AllDigits(s)
    ensures |s| > 1 ==> s[0] != '0'
  {
    if n < 10 then [DigitChar(n)] else NatToString(n / 10) + [DigitChar(n % 10)]
  }

  /** The number a string of decimal digits denotes; leading zeros are allowed. */
  function DigitsValue(s: string): nat
    requires AllDigits(s)
  {
    if |s| == 0 then 0 else DigitsValue(s[..|s| - 1]) * 10 + DigitValue(s[|s| - 1])
  }

  /** A non-empty run of decimal digits, or nothing. */
  function ParseNat(s: string): (r: Option<nat>)
    ensures r.Some? <==> |s| > 0 && AllDigits(s)
  {
    if |s| > 0 && AllDigits(s) then Some(DigitsValue(s)) else None
  }

  /** Digits with no superfluous leading zero: what `NatToString` produces. */
  predicate Canonical(s: string) {
    |s| > 0 && AllDigits(s) && (|s| > 1 ==> s[0] != '0')
  }

  /** Rendering a number and reading it back gives the number. */
  lemma {:induction false} ParseNatToString(n: nat)
    ensures ParseNat(NatToString(n)) == Some(n)
  {
    var s := NatToString(n);
    if n >= 10 {
      ParseNatToString(n / 10);
      assert s[..|s| - 1] == NatToString(n / 10);
      assert DigitValue(s[|s| - 1]) == n % 10;
    } else {
      assert DigitValue(s[0]) == n;
      assert DigitsValue(s[..0]) == 0;
      assert DigitsValue(s) == n;
    }
  }

  lemma {:induction false} LeadingNonZeroPositive(s: string)
    requires |s| > 0 && AllDigits(s) && s[0] != '0'
    ensures DigitsValue(s) >= 1
  {
    if |s| > 1 {
      LeadingNonZeroPositive(s[..|s| - 1]);
    }
  }

  /** Every canonical digit string is the rendering of the number it denotes. */
  lemma {:induction false} NatToStringOfCanonical(s: string)
    requires Canonical(s)
    ensures NatToString(DigitsValue(s)) == s
  {
    if |s| > 1 {
      var p := s[..|s| - 1];
      LeadingNonZeroPositive(p);
      NatToStringOfCanonical(p);
      assert s == p + [s[|s| - 1]];
    }
  }

  /** Python's `int()` on a query-string value: an optional sign, then decimal digits. */
  function ParseInt(s: string): (r: Option<int>)
    ensures r.Some? <==> (|s| > 0 && AllDigits(s)) || (|s| > 1 && (s[0] == '-' || s[0] == '+') && AllDigits(s[1..]))
  {
    if |s| > 0 && (s[0] == '-' || s[0] == '+') then
      match ParseNat(s[1..])
      case Some(v) => var value: int := if s[0] == '-' then -(v as int) else v; Some(value)
      case None => None
    else
      match ParseNat(s)
      case Some(v) => Some(v)
      case None => None
  }

  /** `int(str(n)) == n` and `int("-" + str(n)) == -n`. */
  lemma ParseIntOfRendering(n: nat)
    ensures ParseInt(NatToString(n)) == Some(n)
    ensures ParseInt("-" + NatToString(n)).Some? && ParseInt("-" + NatToString(n)).value == -(n as int)
  {
    ParseNatToString(n);
    assert ("-" + NatToString(n))[1..] == NatToString(n);
  }
}

=== FILE: links.dfy ===
/** `create_instance` and `delete_instance` of the recipe view set, which add
    and remove (user, recipe) rows of the Favorite or ShoppingCart table, and
    the same two steps as the subscribe action applies them to Subscribe rows. */
module Links {
  import opened Wrappers
  import opened Sequences
  import opened Models

  datatype LinkError =
    | NotFound          // the recipe or author looked up by id does not exist (HTTP 404)
    | AlreadyExists     // the unique constraint on the pair refuses the insert
    | SelfSubscription  // a user tries to subscribe to themself

  /** Look the target up, then insert the pair; the table's unique constraint refuses a repeat. */
  function CreateInstance(table: seq<Link>, targets: set<nat>, user: UserId, pk: nat): (r: Result<seq<Link>, LinkError>)
    ensures r.Success? <==> pk in targets && Link(user, pk) !in table
    ensures pk !in targets ==> r == Failure(NotFound)
    ensures r.Success? ==> multiset(r.value) == multiset(table) + multiset{Link(user, pk)}
  {
    if pk !in targets then Failure(NotFound)
    else if Link(user, pk) in table then Failure(AlreadyExists)
    else Success(table + [Link(user, pk)])
  }

  /** Delete every row equal to (user, pk); a missing pair is not an error. */
  function DeleteInstance(table: seq<Link>, user: UserId, pk: nat): (r: seq<Link>)
    ensures Link(user, pk) !in r
    ensures forall x | x != Link(user, pk) :: multiset(r)[x] == multiset(table)[x]
  {
    if |table| == 0 then []
    else
      var rest := DeleteInstance(table[..|table| - 1], user, pk);
      var last := table[|table| - 1];
      assert table == table[..|table| - 1] + [last];
      if last == Link(user, pk) then rest else rest + [last]
  }

  /** A row survives deletion exactly when it was there and is not the deleted pair. */
  lemma {:induction false} DeleteKeepsOthers(table: seq<Link>, user: UserId, pk: nat, x: Link)
    ensures x in DeleteInstance(table, user, pk) <==> x in table && x != Link(user, pk)
  {
    assert x in DeleteInstance(table, user, pk) <==> multiset(DeleteInstance(table, user, pk))[x] > 0;
  }

  /** Deleting a pair that is not there changes nothing. */
  lemma {:induction false} DeleteAbsent(table: seq<Link>, user: UserId, pk: nat)
    requires Link(user, pk) !in table
    ensures DeleteInstance(table, user, pk) == table
  {
    if |table| > 0 {
      DeleteAbsent(table[..|table| - 1], user, pk);
      assert table == table[..|table| - 1] + [table[|table| - 1]];
    }
  }

  /** Deleting twice is deleting once. */
  lemma DeleteIdempotent(table: seq<Link>, user: UserId, pk: nat)
    ensures DeleteInstance(DeleteInstance(table, user, pk), user, pk) == DeleteInstance(table, user, pk)
  {
    DeleteAbsent(DeleteInstance(table, user, pk), user, pk);
  }

  /** Adding a pair and deleting it again restores the table. */
  lemma CreateThenDelete(table: seq<Link>, targets: set<nat>, user: UserId, pk: nat)
    requires CreateInstance(table, targets, user, pk).Success?
    ensures DeleteInstance(CreateInstance(table, targets, user, pk).value, user, pk) == table
  {
    var t := table + [Link(user, pk)];
    assert t[..|t| - 1] == table;
    DeleteAbsent(table, user, pk);
  }

  /** Once the pair is deleted it can be added again, as long as the target exists. */
  lemma DeleteThenCreate(table: seq<Link>, targets: set<nat>, user: UserId, pk: nat)
    requires pk in targets
    ensures CreateInstance(DeleteInstance(table, user, pk), targets, user, pk).Success?
  {
  }

  lemma {:induction false} DeletePreservesDistinct(table: seq<Link>, user: UserId, pk: nat)
    requires Distinct(table)
    ensures Distinct(DeleteInstance(table, user, pk))
  {
    if |table| > 0 {
      var p := table[..|table| - 1];
      var last := table[|table| - 1];
      assert Distinct(p);
      DeletePreservesDistinct(p, user, pk);
      DeleteKeepsOthers(p, user, pk, last);
    }
  }

  /** Both operations keep the table free of repeated pairs and of dangling targets. */
  lemma LinkOperationsPreserveValid(table: seq<Link>, targets: set<nat>, user: UserId, pk: nat)
    requires LinksValid(table, targets)
    ensures CreateInstance(table, targets, user, pk).Success? ==> LinksValid(CreateInstance(table, targets, user, pk).value, targets)
    ensures LinksValid(DeleteInstance(table, user, pk), targets)
  {
    DeletePreservesDistinct(table, user, pk);
    var d := DeleteInstance(table, user, pk);
    forall i | 0 <= i < |d|
      ensures d[i].target in targets
    {
      DeleteKeepsOthers(table, user, pk, d[i]);
    }
  }

  // ---------------------------------------------------------------------
  // The favorite and shopping_cart actions on the whole store

  function AddToCart(store: Store, user: UserId, pk: RecipeId): (r: Result<Store, LinkError>)
    ensures r.Success? <==> pk in RecipeIds(store) && Link(user, pk) !in store.carts
    ensures pk !in RecipeIds(store) ==> r == Failure(NotFound)
    ensures r.Success? ==> r.value.(carts := store.carts) == store
    ensures r.Success? ==> multiset(r.value.carts) == multiset(store.carts) + multiset{Link(user, pk)}
  {
    match CreateInstance(store.carts, RecipeIds(store), user, pk)
    case Success(carts) => Success(store.(carts := carts))
    case Failure(e) => Failure(e)
  }

  function RemoveFromCart(store: Store, user: UserId, pk: RecipeId): (r: Store)
    ensures r.(carts := store.carts) == store
    ensures Link(user, pk) !in r.carts
    ensures forall x | x != Link(user, pk) :: multiset(r.carts)[x] == multiset(store.carts)[x]
  {
    store.(carts := DeleteInstance(store.carts, user, pk))
  }

  function AddFavorite(store: Store, user: UserId, pk: RecipeId): (r: Result<Store, LinkError>)
    ensures r.Success? <==> pk in RecipeIds(store) && Link(user, pk) !in store.favorites
    ensures pk !in RecipeIds(store) ==> r == Failure(NotFound)
    ensures r.Success? ==> r.value.(favorites := store.favorites) == store
    ensures r.Success? ==> multiset(r.value.favorites) == multiset(store.favorites) + multiset{Link(user, pk)}
  {
    match CreateInstance(store.favorites, RecipeIds(store), user, pk)
    case Success(favorites) => Success(store.(favorites := favorites))
    case Failure(e) => Failure(e)
  }

  function RemoveFavorite(store: Store, user: UserId, pk: RecipeId): (r: Store)
    ensures r.(favorites := store.favorites) == store
    ensures Link(user, pk) !in r.favorites
    ensures forall x | x != Link(user, pk) :: multiset(r.favorites)[x] == multiset(store.favorites)[x]
  {
    store.(favorites := DeleteInstance(store.favorites, user, pk))
  }

  /** Cart and favourite changes keep every schema constraint of the store. */
  lemma MembershipPreservesValid(store: Store, user: UserId, pk: RecipeId)
    requires Valid(store)
    ensures AddToCart(store, user, pk).Success? ==> Valid(AddToCart(store, user, pk).value)
    ensures Valid(RemoveFromCart(store, user, pk))
    ensures AddFavorite(store, user, pk).Success? ==> Valid(AddFavorite(store, user, pk).value)
    ensures Valid(RemoveFavorite(store, user, pk))
  {
    LinkOperationsPreserveValid(store.carts, RecipeIds(store), user, pk);
    LinkOperationsPreserveValid(store.favorites, RecipeIds(store), user, pk);
  }
}

=== FILE: models.dfy ===
/** The relational data model of the recipe backend: one datatype per table
    and the constraints the database enforces, as predicates. A `Store` holds
    every table as a sequence of rows in insertion (ascending id) order; a
    query that lists newest first reads its sequence from the end. */
module Models {
  import opened Wrappers
  import opened Sequences

  type UserId = nat
  type RecipeId = nat
  type IngredientId = nat
  type TagId = nat

  const TagNameMaxLength := 100
  const TagColorMaxLength := 7
  const TagSlugMaxLength := 100
  const IngredientFieldMaxLength := 250
  const RecipeNameMaxLength := 255
  /** Lower bound of a recipe's cooking time, in minutes. */
  const MinCookingTime := 1
  /** Lower bound of an ingredient amount within a recipe. */
  const MinAmount := 1
  /** Largest value a positive small-integer column holds. */
  const MaxAmount := 32767

  datatype Tag = Tag(id: TagId, name: string, color: string, slug: string)

  datatype Ingredient = Ingredient(id: IngredientId, name: string, measurementUnit: string)

  datatype Recipe = Recipe(
    id: RecipeId,
    author: UserId,
    name: string,
    text: string,
    tags: set<TagId>,
    cookingTime: nat)

  /** The through-table row saying that `recipe` needs `amount` of `ingredient`. */
  datatype IngredientRecipe = IngredientRecipe(ingredient: IngredientId, recipe: RecipeId, amount: nat)

  /** A row of a user-to-something association: a favourite or a shopping-cart
      entry (`target` is a recipe) or a subscription (`target` is an author). */
  datatype Link = Link(user: UserId, target: nat)

  datatype Store = Store(
    tags: seq<Tag>,
    ingredients: seq<Ingredient>,
    recipes: seq<Recipe>,
    ingredientRecipes: seq<IngredientRecipe>,
    favorites: seq<Link>,
    carts: seq<Link>,
    subscriptions: seq<Link>)

  function TagIds(store: Store): set<TagId> {
    set t | t in store.tags :: t.id
  }

  function IngredientIds(store: Store): set<IngredientId> {
    set g | g in store.ingredients :: g.id
  }

  function RecipeIds(store: Store): set<RecipeId> {
    set r | r in store.recipes :: r.id
  }

  /** Tag name, colour and slug fit their columns; colour is at most seven characters. */
  predicate TagValid(t: Tag) {
    |t.name| <= TagNameMaxLength && |t.color| <= TagColorMaxLength && |t.slug| <= TagSlugMaxLength
  }

  /** Every tag fits its columns, and id, name, colour and slug are each unique across tags. */
  predicate TagsValid(tags: seq<Tag>) {
    && (forall i | 0 <= i < |tags| :: TagValid(tags[i]))
    && (forall i, j | 0 <= i < j < |tags| ::
          && tags[i].id != tags[j].id
          && tags[i].name != tags[j].name
          && tags[i].color != tags[j].color
          && tags[i].slug != tags[j].slug)
  }

  predicate IngredientsValid(ingredients: seq<Ingredient>) {
    && (forall i | 0 <= i < |ingredients| ::
          |ingredients[i].name| <= IngredientFieldMaxLength
          && |ingredients[i].measurementUnit| <= IngredientFieldMaxLength)
    && (forall i, j | 0 <= i < j < |ingredients| :: ingredients[i].id != ingredients[j].id)
  }

  /** A recipe's cooking time is at least one minute and its tags exist. */
  predicate RecipeValid(r: Recipe, tagIds: set<TagId>) {
    |r.name| <= RecipeNameMaxLength && r.cookingTime >= MinCookingTime && r.tags <= tagIds
  }

  predicate RecipesValid(recipes: seq<Recipe>, tagIds: set<TagId>) {
    && (forall i | 0 <= i < |recipes| :: RecipeValid(recipes[i], tagIds))
    && (forall i, j | 0 <= i < j < |recipes| :: recipes[i].id != recipes[j].id)
  }

  /** Every ingredient amount lies in [MinAmount, MaxAmount]. */
  predicate AmountsValid(rows: seq<IngredientRecipe>) {
    forall i | 0 <= i < |rows| :: MinAmount <= rows[i].amount <= MaxAmount
  }

  /** No recipe lists the same ingredient twice. */
  predicate IngredientPairsUnique(rows: seq<IngredientRecipe>) {
    forall i, j | 0 <= i < j < |rows| ::
      rows[i].recipe != rows[j].recipe || rows[i].ingredient != rows[j].ingredient
  }

  predicate IngredientRecipesValid(rows: seq<IngredientRecipe>, recipeIds: set<RecipeId>, ingredientIds: set<IngredientId>) {
    && AmountsValid(rows)
    && IngredientPairsUnique(rows)
    && (forall i | 0 <= i < |rows| :: rows[i].recipe in recipeIds && rows[i].ingredient in ingredientIds)
  }

  /** No (user, target) pair occurs twice and every target exists. */
  predicate LinksValid(links: seq<Link>, targets: set<nat>) {
    Distinct(links) && forall i | 0 <= i < |links| :: links[i].target in targets
  }

  /** Every constraint the schema declares, plus referential integrity. */
  predicate Valid(store: Store) {
    && TagsValid(store.tags)
    && IngredientsValid(store.ingredients)
    && RecipesValid(store.recipes, TagIds(store))
    && IngredientRecipesValid(store.ingredientRecipes, RecipeIds(store), IngredientIds(store))
    && LinksValid(store.favorites, RecipeIds(store))
    && LinksValid(store.carts, RecipeIds(store))
    && Distinct(store.subscriptions)
  }

  /** The ingredient row with the given id, if any. */
  function FindIngredient(ingredients: seq<Ingredient>, id: IngredientId): (r: Option<Ingredient>)
    ensures r.Some? <==> exists i | 0 <= i < |ingredients| :: ingredients[i].id == id
    ensures r.Some? ==> r.value in ingredients && r.value.id == id
  {
    if |ingredients| == 0 then None
    else if ingredients[0].id == id then Some(ingredients[0])
    else
      var r := FindIngredient(ingredients[1..], id);
      assert forall i | 1 <= i < |ingredients| :: ingredients[i] == ingredients[1..][i - 1];
      r
  }
}

=== FILE: recipe_write.dfy ===
/** Writing a recipe: the checks applied to a submitted recipe, `validate`,
    `add_ingredients`, `create` and `update` of the recipe write serializer. */
module RecipeWrite {
  import opened Wrappers
  import opened Sequences
  import opened Models
  import opened Text

  /** One submitted ingredient, `{"id": ..., "amount": ...}`; the amount is any integer. */
  datatype IngredientAmount = IngredientAmount(id: IngredientId, amount: int)

  /** A submitted recipe (the image is not modelled). */
  datatype RecipeData = RecipeData(
    ingredients: seq<IngredientAmount>,
    tags: seq<TagId>,
    name: string,
    text: string,
    cookingTime: int)

  datatype WriteError =
    | NameBlank                                     // name empty or only whitespace
    | NameTooLong                                   // name longer than its column once stripped
    | TextBlank                                     // text empty or only whitespace
    | NullCharacter                                 // name or text holding U+0000
    | CookingTimeTooSmall                           // cooking_time below one minute
    | UnknownTag(tag: TagId)                        // a tag id that names no tag
    | AmountOutOfRange(ingredient: IngredientId)    // an amount outside [MinAmount, MaxAmount]
    | IngredientNotFound(ingredient: IngredientId)  // HTTP 404 raised inside validate
    | IngredientMissing(ingredient: IngredientId)   // Ingredient.DoesNotExist raised inside add_ingredients
    | DuplicateIngredient                           // the same ingredient submitted twice
    | NoTags                                        // an empty tag list
    | InsertRejected                                // the database refuses an ingredient row

  function Ids(items: seq<IngredientAmount>): (ids: seq<IngredientId>)
    ensures |ids| == |items|
    ensures forall i | 0 <= i < |items| :: ids[i] == items[i].id
  {
    seq(|items|, i requires 0 <= i < |items| => items[i].id)
  }

  // ---------------------------------------------------------------------
  // Field checks, run before validate

  /** The first tag id that names no tag, if any. */
  function CheckTags(tags: seq<TagId>, tagIds: set<TagId>): (r: Outcome<WriteError>)
    ensures r == Pass <==> forall i | 0 <= i < |tags| :: tags[i] in tagIds
    ensures r.Fail? ==> r.error.UnknownTag? && r.error.tag in tags && r.error.tag !in tagIds
  {
    if |tags| == 0 then Pass
    else if tags[0] !in tagIds then Fail(UnknownTag(tags[0]))
    else
      assert forall i | 1 <= i < |tags| :: tags[i] == tags[1..][i - 1];
      CheckTags(tags[1..], tagIds)
  }

  /** The model-derived field checks: a name and a text that are not blank
      and hold no null character (the name at most its column's length once
      stripped), a cooking time of at least a minute, and tag ids that exist. */
  function CheckFields(data: RecipeData, tagIds: set<TagId>): (r: Outcome<WriteError>)
    ensures r == Pass <==>
      && !AllSpace(data.name)
      && |Trim(data.name)| <= RecipeNameMaxLength
      && '\0' !in data.name
      && !AllSpace(data.text)
      && '\0' !in data.text
      && data.cookingTime >= MinCookingTime
      && forall i | 0 <= i < |data.tags| :: data.tags[i] in tagIds
  {
    if AllSpace(data.name) then Fail(NameBlank)
    else if |Trim(data.name)| > RecipeNameMaxLength then Fail(NameTooLong)
    else if '\0' in data.name then Fail(NullCharacter)
    else if AllSpace(data.text) then Fail(TextBlank)
    else if '\0' in data.text then Fail(NullCharacter)
    else if data.cookingTime < MinCookingTime then Fail(CookingTimeTooSmall)
    else CheckTags(data.tags, tagIds)
  }

  /** What the field stage hands on: the name and the text stripped. */
  function Stripped(data: RecipeData): (r: RecipeData)
    ensures r.ingredients == data.ingredients && r.tags == data.tags && r.cookingTime == data.cookingTime
    ensures Trim(r.name) == r.name && Trim(r.text) == r.text
    ensures |r.name| <= |data.name| && |r.text| <= |data.text|
    ensures (r.name == [] <==> AllSpace(data.name)) && (r.text == [] <==> AllSpace(data.text))
  {
    TrimIdempotent(data.name);
    TrimIdempotent(data.text);
    data.(name := Trim(data.name), text := Trim(data.text))
  }

  // ---------------------------------------------------------------------
  // validate

  /** The ingredient loop of `validate`: each id is looked up (404 when missing)
      and compared with the ones already accepted. */
  function CheckIngredients(items: seq<IngredientAmount>, known: set<IngredientId>, seen: seq<IngredientId>): (r: Outcome<WriteError>)
    ensures r.Fail? ==> r.error == DuplicateIngredient || r.error.IngredientNotFound?
    ensures r.Fail? && r.error.IngredientNotFound? ==> r.error.ingredient !in known && r.error.ingredient in Ids(items)
    decreases |items|
  {
    if |items| == 0 then Pass
    else if items[0].id !in known then Fail(IngredientNotFound(items[0].id))
    else if items[0].id in seen then Fail(DuplicateIngredient)
    else CheckIngredients(items[1..], known, seen + [items[0].id])
  }

  /** `validate`: the ingredient loop first, then the empty-tag check; on success the data comes back as it was. */
  function Validate(data: RecipeData, known: set<IngredientId>): (r: Result<RecipeData, WriteError>)
    ensures r.Success? ==> r.value == data
  {
    match CheckIngredients(data.ingredients, known, [])
    case Fail(e) => Failure(e)
    case Pass => if |data.tags| == 0 then Failure(NoTags) else Success(data)
  }

  lemma {:induction false} CheckIngredientsPass(items: seq<IngredientAmount>, known: set<IngredientId>, seen: seq<IngredientId>)
    ensures CheckIngredients(items, known, seen) == Pass <==>
      && (forall i | 0 <= i < |items| :: items[i].id in known)
      && Distinct(Ids(items))
      && (forall i | 0 <= i < |items| :: items[i].id !in seen)
    decreases |items|
  {
    if |items| > 0 {
      var rest := items[1..];
      CheckIngredientsPass(rest, known, seen + [items[0].id]);
      assert forall i | 1 <= i < |items| :: items[i] == rest[i - 1];
      assert Distinct(Ids(items)) <==> Distinct(Ids(rest)) && items[0].id !in Ids(rest) by {
        if Distinct(Ids(rest)) && items[0].id !in Ids(rest) {
          forall i, j | 0 <= i < j < |items|
            ensures Ids(items)[i] != Ids(items)[j]
          {
            if i > 0 {
              assert Ids(rest)[i - 1] != Ids(rest)[j - 1];
            } else {
              assert Ids(rest)[j - 1] == items[j].id;
            }
          }
        }
        if Distinct(Ids(items)) {
          forall i, j | 0 <= i < j < |rest|
            ensures Ids(rest)[i] != Ids(rest)[j]
          {
            assert Ids(items)[i + 1] != Ids(items)[j + 1];
          }
        }
      }
    }
  }

  /** When every id exists, the loop can only complain about a repeat. */
  lemma {:induction false} CheckIngredientsKnown(items: seq<IngredientAmount>, known: set<IngredientId>, seen: seq<IngredientId>)
    requires forall i | 0 <= i < |items| :: items[i].id in known
    ensures CheckIngredients(items, known, seen) in {Pass, Fail(DuplicateIngredient)}
    decreases |items|
  {
    if |items| > 0 {
      assert forall i | 1 <= i < |items| :: items[i] == items[1..][i - 1];
      CheckIngredientsKnown(items[1..], known, seen + [items[0].id]);
    }
  }

  /** `validate` accepts exactly the payloads whose ingredients all exist, are
      pairwise different, and that carry at least one tag. */
  lemma ValidateAccepts(data: RecipeData, known: set<IngredientId>)
    ensures Validate(data, known).Success? <==>
      && (forall i | 0 <= i < |data.ingredients| :: data.ingredients[i].id in known)
      && Distinct(Ids(data.ingredients))
      && |data.tags| > 0
  {
    CheckIngredientsPass(data.ingredients, known, []);
  }

  /** A repeated ingredient is reported even when the tag list is empty too:
      the ingredient loop runs before the tag check. */
  lemma ValidateReportsDuplicateFirst(data: RecipeData, known: set<IngredientId>)
    requires forall i | 0 <= i < |data.ingredients| :: data.ingredients[i].id in known
    requires !Distinct(Ids(data.ingredients))
    ensures Validate(data, known) == Failure(DuplicateIngredient)
  {
    CheckIngredientsPass(data.ingredients, known, []);
    CheckIngredientsKnown(data.ingredients, known, []);
  }

  /** Sound ingredients with no tag at all are refused for the missing tags. */
  lemma ValidateRejectsNoTags(data: RecipeData, known: set<IngredientId>)
    requires forall i | 0 <= i < |data.ingredients| :: data.ingredients[i].id in known
    requires Distinct(Ids(data.ingredients))
    requires |data.tags| == 0
    ensures Validate(data, known) == Failure(NoTags)
  {
    CheckIngredientsPass(data.ingredients, known, []);
  }

  // ---------------------------------------------------------------------
  // The whole check of a submitted recipe

  /** Field checks, then `validate` on the stripped fields, as the serializer
      runs them. The amount of an ingredient is not checked at all. */
  function IsValid(data: RecipeData, store: Store): (r: Result<RecipeData, WriteError>)
    ensures r.Success? <==> CheckFields(data, TagIds(store)) == Pass && Validate(data, IngredientIds(store)).Success?
    ensures r.Success? ==> r.value == Stripped(data)
  {
    match CheckFields(data, TagIds(store))
    case Fail(e) => Failure(e)
    case Pass => Validate(Stripped(data), IngredientIds(store))
  }

  /** Every amount lies in [MinAmount, MaxAmount]. */
  function CheckAmounts(items: seq<IngredientAmount>): (r: Outcome<WriteError>)
    ensures r == Pass <==> forall i | 0 <= i < |items| :: MinAmount <= items[i].amount <= MaxAmount
  {
    if |items| == 0 then Pass
    else if !(MinAmount <= items[0].amount <= MaxAmount) then Fail(AmountOutOfRange(items[0].id))
    else
      assert forall i | 1 <= i < |items| :: items[i] == items[1..][i - 1];
      CheckAmounts(items[1..])
  }

  /** `IsValid` with the amount range of the ingredient column also enforced at
      the field stage, as the model's validator on `amount` intends. */
  function IsValidChecked(data: RecipeData, store: Store): (r: Result<RecipeData, WriteError>)
    ensures r.Success? <==>
      && CheckFields(data, TagIds(store)) == Pass
      && CheckAmounts(data.ingredients) == Pass
      && Validate(data, IngredientIds(store)).Success?
    ensures r.Success? ==> r.value == Stripped(data)
  {
    match CheckFields(data, TagIds(store))
    case Fail(e) => Failure(e)
    case Pass =>
      match CheckAmounts(data.ingredients)
      case Fail(e) => Failure(e)
      case Pass => Validate(Stripped(data), IngredientIds(store))
  }

  /** The amounts play no part in whether `IsValid` accepts a payload: two
      payloads that differ only in their amounts are accepted or refused together. */
  lemma IsValidIgnoresAmounts(data: RecipeData, store: Store, items: seq<IngredientAmount>)
    requires Ids(items) == Ids(data.ingredients)
    ensures IsValid(data.(ingredients := items), store).Success? <==> IsValid(data, store).Success?
  {
    FieldsIgnoreIngredients(data, items, TagIds(store));
    ValidateSameIds(data, items, IngredientIds(store));
  }

  /** The field checks do not look at the ingredient list. */
  lemma FieldsIgnoreIngredients(data: RecipeData, items: seq<IngredientAmount>, tagIds: set<TagId>)
    ensures CheckFields(data.(ingredients := items), tagIds) == Pass <==> CheckFields(data, tagIds) == Pass
  {
    var other := data.(ingredients := items);
    assert other.name == data.name && other.text == data.text;
    assert other.tags == data.tags && other.cookingTime == data.cookingTime;
  }

  /** The ingredient checks of `validate` look only at the ingredient ids. */
  lemma ValidateSameIds(data: RecipeData, items: seq<IngredientAmount>, known: set<IngredientId>)
    requires Ids(items) == Ids(data.ingredients)
    ensures Validate(data.(ingredients := items), known).Success? <==> Validate(data, known).Success?
  {
    ValidateAccepts(data, known);
    ValidateAccepts(data.(ingredients := items), known);
    assert forall i | 0 <= i < |items| :: items[i].id == Ids(items)[i];
  }

  /** Stripping accepted fields again changes nothing and they still pass. */
  lemma StrippedFieldsPass(data: RecipeData, tagIds: set<TagId>)
    requires CheckFields(data, tagIds) == Pass
    ensures Stripped(Stripped(data)) == Stripped(data)
    ensures CheckFields(Stripped(data), tagIds) == Pass
    ensures var v := Stripped(data);
      && 0 < |v.name| <= RecipeNameMaxLength && Unpadded(v.name)
      && 0 < |v.text| && Unpadded(v.text)
  {
    PassingFields(data, tagIds);
    FieldStripped(data.name);
    FieldStripped(data.text);
    StrippedIdempotent(data);
    var v := Stripped(data);
    assert v.name == Trim(data.name) && v.text == Trim(data.text);
    assert v.tags == data.tags && v.cookingTime == data.cookingTime;
    FieldsPassing(v, tagIds);
  }

  /** What a passing field check says about the fields. */
  lemma PassingFields(data: RecipeData, tagIds: set<TagId>)
    requires CheckFields(data, tagIds) == Pass
    ensures !AllSpace(data.name) && '\0' !in data.name && |Trim(data.name)| <= RecipeNameMaxLength
    ensures !AllSpace(data.text) && '\0' !in data.text
    ensures data.cookingTime >= MinCookingTime
    ensures forall i | 0 <= i < |data.tags| :: data.tags[i] in tagIds
  {
  }

  /** Fields that meet every condition pass the field check. */
  lemma FieldsPassing(data: RecipeData, tagIds: set<TagId>)
    requires !AllSpace(data.name) && '\0' !in data.name && |Trim(data.name)| <= RecipeNameMaxLength
    requires !AllSpace(data.text) && '\0' !in data.text
    requires data.cookingTime >= MinCookingTime
    requires forall i | 0 <= i < |data.tags| :: data.tags[i] in tagIds
    ensures CheckFields(data, tagIds) == Pass
  {
  }

  /** Stripping the handed-on value again changes nothing. */
  lemma StrippedIdempotent(data: RecipeData)
    ensures Stripped(Stripped(data)) == Stripped(data)
  {
    var v := Stripped(data);
    assert Stripped(v).name == v.name && Stripped(v).text == v.text;
  }

  /** A field that passes strips to a value that passes and stays put. */
  lemma FieldStripped(s: string)
    requires !AllSpace(s) && '\0' !in s
    ensures var t := Trim(s);
      && 0 < |t| && Unpadded(t)
      && !AllSpace(t) && '\0' !in t && Trim(t) == t
  {
    TrimStable(s);
    TrimKeepsAbsent(s, '\0');
  }

  /** What the validation hands on is accepted again unchanged: its name and
      text are stripped, not blank, and the name fits its column. */
  lemma ValidatedDataIsStable(data: RecipeData, store: Store)
    requires IsValidChecked(data, store).Success?
    ensures var v := IsValidChecked(data, store).value;
      && IsValidChecked(v, store) == Success(v)
      && IsValid(v, store) == Success(v)
      && 0 < |v.name| <= RecipeNameMaxLength && Unpadded(v.name)
      && 0 < |v.text| && Unpadded(v.text)
  {
    var v := IsValidChecked(data, store).value;
    StrippedFieldsPass(data, TagIds(store));
    assert v.ingredients == data.ingredients && v.tags == data.tags;
  }

  // ---------------------------------------------------------------------
  // Saving

  /** The lookups of `add_ingredients`, in submission order: the first id
      that names no ingredient, if any. */
  function LookUpIngredients(items: seq<IngredientAmount>, known: set<IngredientId>): (r: Outcome<WriteError>)
    ensures r == Pass <==> forall i | 0 <= i < |items| :: items[i].id in known
    ensures r.Fail? ==> r.error.IngredientMissing? && r.error.ingredient !in known && r.error.ingredient in Ids(items)
  {
    if |items| == 0 then Pass
    else if items[0].id !in known then Fail(IngredientMissing(items[0].id))
    else
      assert forall i | 1 <= i < |items| :: items[i] == items[1..][i - 1];
      LookUpIngredients(items[1..], known)
  }

  /** `add_ingredients`: every submitted id is looked up first (an unknown one
      raises), then one row per submitted item is inserted, for the given
      recipe and with that item's amount. The column holds only [0, MaxAmount]
      and the pair (recipe, ingredient) is unique, so the database refuses
      anything else. */
  function AddIngredients(items: seq<IngredientAmount>, recipe: RecipeId, known: set<IngredientId>): (r: Result<seq<IngredientRecipe>, WriteError>)
    ensures r.Success? <==>
      && (forall i | 0 <= i < |items| :: items[i].id in known)
      && (forall i | 0 <= i < |items| :: 0 <= items[i].amount <= MaxAmount)
      && Distinct(Ids(items))
    ensures r.Failure? ==> r.error == InsertRejected || r.error.IngredientMissing?
    ensures r.Failure? && r.error.IngredientMissing? ==> r.error.ingredient !in known && r.error.ingredient in Ids(items)
    ensures (exists i | 0 <= i < |items| :: items[i].id !in known) ==> r.Failure? && r.error.IngredientMissing?
    ensures r.Success? ==> |r.value| == |items|
    ensures r.Success? ==> forall i | 0 <= i < |items| ::
      r.value[i].ingredient == items[i].id && r.value[i].recipe == recipe && r.value[i].amount == items[i].amount
  {
    match LookUpIngredients(items, known)
    case Fail(e) => Failure(e)
    case Pass =>
      if (forall i | 0 <= i < |items| :: 0 <= items[i].amount <= MaxAmount) && Distinct(Ids(items)) then
        Success(seq(|items|, i requires 0 <= i < |items| => IngredientRecipe(items[i].id, recipe, items[i].amount as nat)))
      else
        Failure(InsertRejected)
  }

  /** The ingredient rows of one recipe, in table order. */
  function RowsOf(rows: seq<IngredientRecipe>, recipe: RecipeId): (r: seq<IngredientRecipe>)
    ensures forall x :: x in r <==> x in rows && x.recipe == recipe
  {
    if |rows| == 0 then []
    else
      var p := rows[..|rows| - 1];
      var last := rows[|rows| - 1];
      assert rows == p + [last];
      RowsOf(p, recipe) + (if last.recipe == recipe then [last] else [])
  }

  /** `instance.ingredients.clear()`: every row of the recipe removed, all others kept in order. */
  function Without(rows: seq<IngredientRecipe>, recipe: RecipeId): (r: seq<IngredientRecipe>)
    ensures forall x :: x in r <==> x in rows && x.recipe != recipe
  {
    if |rows| == 0 then []
    else
      var p := rows[..|rows| - 1];
      var last := rows[|rows| - 1];
      assert rows == p + [last];
      Without(p, recipe) + (if last.recipe != recipe then [last] else [])
  }

  /** The recipe row `create` and `update` write: the submitted fields, and
      as tags the set of the submitted tag ids. */
  function NewRecipe(id: RecipeId, author: UserId, data: RecipeData): (r: Recipe)
    requires data.cookingTime >= MinCookingTime
    ensures r.id == id && r.author == author
    ensures r.name == data.name && r.text == data.text && r.cookingTime == data.cookingTime
    ensures forall t :: t in r.tags <==> t in data.tags
  {
    Recipe(id, author, data.name, data.text, (set t | t in data.tags), data.cookingTime)
  }

  /** `create`: insert the recipe with its tags, then its ingredient rows. */
  function CreateRecipe(store: Store, author: UserId, id: RecipeId, data: RecipeData): (r: Result<Store, WriteError>)
    requires id !in RecipeIds(store)
    requires data.cookingTime >= MinCookingTime
    requires forall t | t in data.tags :: t in TagIds(store)
    ensures r.Success? <==> AddIngredients(data.ingredients, id, IngredientIds(store)).Success?
    ensures r.Failure? ==> r.error == InsertRejected || (r.error.IngredientMissing? && r.error.ingredient !in IngredientIds(store))
    ensures (exists i | 0 <= i < |data.ingredients| :: data.ingredients[i].id !in IngredientIds(store)) ==>
      r.Failure? && r.error.IngredientMissing?
    ensures r.Success? ==> r.value.(recipes := store.recipes, ingredientRecipes := store.ingredientRecipes) == store
    ensures r.Success? ==> |r.value.recipes| == |store.recipes| + 1
    ensures r.Success? ==> |r.value.ingredientRecipes| == |store.ingredientRecipes| + |data.ingredients|
  {
    match AddIngredients(data.ingredients, id, IngredientIds(store))
    case Failure(e) => Failure(e)
    case Success(rows) =>
      Success(store.(recipes := store.recipes + [NewRecipe(id, author, data)],
                     ingredientRecipes := store.ingredientRecipes + rows))
  }

  /** The recipe list with the fields of recipe `id` overwritten and its tags replaced. */
  function UpdateFields(recipes: seq<Recipe>, id: RecipeId, data: RecipeData): (r: seq<Recipe>)
    requires data.cookingTime >= MinCookingTime
    ensures |r| == |recipes|
    ensures forall i | 0 <= i < |r| :: r[i] == if recipes[i].id == id then NewRecipe(id, recipes[i].author, data) else recipes[i]
  {
    seq(|recipes|, i requires 0 <= i < |recipes| =>
      if recipes[i].id == id then NewRecipe(id, recipes[i].author, data) else recipes[i])
  }

  /** `update`: overwrite the fields, replace the tags, clear the ingredient rows, add the new ones. */
  function UpdateRecipe(store: Store, id: RecipeId, data: RecipeData): (r: Result<Store, WriteError>)
    requires id in RecipeIds(store)
    requires data.cookingTime >= MinCookingTime
    requires forall t | t in data.tags :: t in TagIds(store)
    ensures r.Success? <==> AddIngredients(data.ingredients, id, IngredientIds(store)).Success?
    ensures r.Failure? ==> r.error == InsertRejected || (r.error.IngredientMissing? && r.error.ingredient !in IngredientIds(store))
    ensures (exists i | 0 <= i < |data.ingredients| :: data.ingredients[i].id !in IngredientIds(store)) ==>
      r.Failure? && r.error.IngredientMissing?
    ensures r.Success? ==> r.value.(recipes := store.recipes, ingredientRecipes := store.ingredientRecipes) == store
    ensures r.Success? ==> |r.value.recipes| == |store.recipes|
  {
    match AddIngredients(data.ingredients, id, IngredientIds(store))
    case Failure(e) => Failure(e)
    case Success(rows) =>
      Success(store.(recipes := UpdateFields(store.recipes, id, data),
                     ingredientRecipes := Without(store.ingredientRecipes, id) + rows))
  }

  // ---------------------------------------------------------------------
  // What saving does to the store

  lemma RowsOfSnoc(s: seq<IngredientRecipe>, x: IngredientRecipe, recipe: RecipeId)
    ensures RowsOf(s + [x], recipe) == RowsOf(s, recipe) + (if x.recipe == recipe then [x] else [])
  {
    assert (s + [x])[..|s|] == s;
  }

  lemma {:induction false} RowsOfConcat(a: seq<IngredientRecipe>, b: seq<IngredientRecipe>, recipe: RecipeId)
    ensures RowsOf(a + b, recipe) == RowsOf(a, recipe) + RowsOf(b, recipe)
    decreases |b|
  {
    if |b| == 0 {
      assert a + b == a;
    } else {
      var m := |b| - 1;
      assert a + b == (a + b[..m]) + [b[m]];
      assert b == b[..m] + [b[m]];
      RowsOfSnoc(a + b[..m], b[m], recipe);
      RowsOfSnoc(b[..m], b[m], recipe);
      RowsOfConcat(a, b[..m], recipe);
    }
  }

  lemma {:induction false} RowsOfWithout(rows: seq<IngredientRecipe>, id: RecipeId, other: RecipeId)
    ensures RowsOf(Without(rows, id), other) == if other == id then [] else RowsOf(rows, other)
  {
    if |rows| > 0 {
      var p := rows[..|rows| - 1];
      var last := rows[|rows| - 1];
      RowsOfWithout(p, id, other);
      RowsOfConcat(Without(p, id), if last.recipe != id then [last] else [], other);
    }
  }

  lemma RowsOfUniform(rows: seq<IngredientRecipe>, id: RecipeId, other: RecipeId)
    requires forall i | 0 <= i < |rows| :: rows[i].recipe == id
    ensures RowsOf(rows, other) == if other == id then rows else []
  {
    if other == id {
      RowsOfAll(rows, id);
    } else {
      RowsOfNone(rows, id, other);
    }
  }

  lemma {:induction false} RowsOfNone(rows: seq<IngredientRecipe>, id: RecipeId, other: RecipeId)
    requires forall i | 0 <= i < |rows| :: rows[i].recipe == id
    requires other != id
    ensures RowsOf(rows, other) == []
  {
    if |rows| > 0 {
      var p := rows[..|rows| - 1];
      var last := rows[|rows| - 1];
      assert forall i | 0 <= i < |p| :: p[i] == rows[i];
      RowsOfNone(p, id, other);
      assert rows == p + [last];
      RowsOfSnoc(p, last, other);
    }
  }

  lemma {:induction false} RowsOfAll(rows: seq<IngredientRecipe>, id: RecipeId)
    requires forall i | 0 <= i < |rows| :: rows[i].recipe == id
    ensures RowsOf(rows, id) == rows
  {
    if |rows| > 0 {
      var p := rows[..|rows| - 1];
      var last := rows[|rows| - 1];
      assert forall i | 0 <= i < |p| :: p[i] == rows[i];
      RowsOfAll(p, id);
      assert rows == p + [last];
      RowsOfSnoc(p, last, id);
    }
  }

  /** After `update` the recipe's ingredient rows are exactly the rows made
      from the submitted items, in order, and every other recipe keeps exactly its rows. */
  lemma UpdateReplacesIngredients(store: Store, id: RecipeId, data: RecipeData, other: RecipeId)
    requires id in RecipeIds(store)
    requires data.cookingTime >= MinCookingTime
    requires forall t | t in data.tags :: t in TagIds(store)
    requires UpdateRecipe(store, id, data).Success?
    ensures RowsOf(UpdateRecipe(store, id, data).value.ingredientRecipes, id) == AddIngredients(data.ingredients, id, IngredientIds(store)).value
    ensures other != id ==>
      RowsOf(UpdateRecipe(store, id, data).value.ingredientRecipes, other) == RowsOf(store.ingredientRecipes, other)
  {
    var rows := AddIngredients(data.ingredients, id, IngredientIds(store)).value;
    var kept := Without(store.ingredientRecipes, id);
    assert UpdateRecipe(store, id, data).value.ingredientRecipes == kept + rows;
    RowsOfConcat(kept, rows, id);
    RowsOfConcat(kept, rows, other);
    RowsOfWithout(store.ingredientRecipes, id, id);
    RowsOfWithout(store.ingredientRecipes, id, other);
    RowsOfUniform(rows, id, id);
    RowsOfUniform(rows, id, other);
  }

  /** After `update` the recipe carries the submitted name, text, cooking time
      and exactly the submitted tags; every other recipe and every other table is untouched. */
  lemma UpdateSetsFields(store: Store, id: RecipeId, data: RecipeData)
    requires id in RecipeIds(store)
    requires data.cookingTime >= MinCookingTime
    requires forall t | t in data.tags :: t in TagIds(store)
    requires UpdateRecipe(store, id, data).Success?
    ensures var s := UpdateRecipe(store, id, data).value;
      && |s.recipes| == |store.recipes|
      && (forall i | 0 <= i < |s.recipes| && store.recipes[i].id == id ::
            && s.recipes[i].tags == (set t | t in data.tags)
            && s.recipes[i].name == data.name && s.recipes[i].text == data.text
            && s.recipes[i].cookingTime == data.cookingTime
            && s.recipes[i].author == store.recipes[i].author)
      && (forall i | 0 <= i < |s.recipes| && store.recipes[i].id != id :: s.recipes[i] == store.recipes[i])
      && s.favorites == store.favorites && s.carts == store.carts && s.subscriptions == store.subscriptions
      && s.tags == store.tags && s.ingredients == store.ingredients
  {
  }

  /** After `create` the new recipe carries the submitted fields and tags and the recipe ids grow by its id. */
  lemma CreateAddsRecipe(store: Store, author: UserId, id: RecipeId, data: RecipeData)
    requires id !in RecipeIds(store)
    requires data.cookingTime >= MinCookingTime
    requires forall t | t in data.tags :: t in TagIds(store)
    requires CreateRecipe(store, author, id, data).Success?
    ensures var s := CreateRecipe(store, author, id, data).value;
      && s.recipes == store.recipes + [Recipe(id, author, data.name, data.text, (set t | t in data.tags), data.cookingTime)]
      && RecipeIds(s) == RecipeIds(store) + {id}
      && s.favorites == store.favorites && s.carts == store.carts && s.subscriptions == store.subscriptions
  {
    var s := CreateRecipe(store, author, id, data).value;
    assert s.recipes == store.recipes + [NewRecipe(id, author, data)];
  }

  /** After `create` the new recipe's ingredient rows are exactly the rows made
      from the submitted items, and no other recipe's rows change. */
  lemma CreateAddsIngredients(store: Store, author: UserId, id: RecipeId, data: RecipeData, other: RecipeId)
    requires id !in RecipeIds(store)
    requires data.cookingTime >= MinCookingTime
    requires forall t | t in data.tags :: t in TagIds(store)
    requires forall i | 0 <= i < |store.ingredientRecipes| :: store.ingredientRecipes[i].recipe in RecipeIds(store)
    requires CreateRecipe(store, author, id, data).Success?
    ensures RowsOf(CreateRecipe(store, author, id, data).value.ingredientRecipes, id) == AddIngredients(data.ingredients, id, IngredientIds(store)).value
    ensures other != id ==>
      RowsOf(CreateRecipe(store, author, id, data).value.ingredientRecipes, other) == RowsOf(store.ingredientRecipes, other)
  {
    var rows := AddIngredients(data.ingredients, id, IngredientIds(store)).value;
    assert CreateRecipe(store, author, id, data).value.ingredientRecipes == store.ingredientRecipes + rows;
    RowsOfConcat(store.ingredientRecipes, rows, id);
    RowsOfConcat(store.ingredientRecipes, rows, other);
    RowsOfUniform(rows, id, id);
    RowsOfUniform(rows, id, other);
    RowsOfAbsent(store.ingredientRecipes, id, RecipeIds(store));
  }

  /** A recipe id that no row points at has no rows. */
  lemma {:induction false} RowsOfAbsent(rows: seq<IngredientRecipe>, id: RecipeId, ids: set<RecipeId>)
    requires id !in ids
    requires forall i | 0 <= i < |rows| :: rows[i].recipe in ids
    ensures RowsOf(rows, id) == []
  {
    if |rows| > 0 {
      RowsOfAbsent(rows[..|rows| - 1], id, ids);
    }
  }

  // ---------------------------------------------------------------------
  // Saving keeps the schema's constraints

  lemma {:induction false} WithoutKeepsUnique(rows: seq<IngredientRecipe>, id: RecipeId)
    requires IngredientPairsUnique(rows)
    ensures IngredientPairsUnique(Without(rows, id))
  {
    if |rows| > 0 {
      var p := rows[..|rows| - 1];
      var last := rows[|rows| - 1];
      assert IngredientPairsUnique(p);
      WithoutKeepsUnique(p, id);
      var w := Without(p, id);
      forall i | 0 <= i < |w|
        ensures w[i].recipe != last.recipe || w[i].ingredient != last.ingredient
      {
        assert w[i] in p;
        var j :| 0 <= j < |p| && p[j] == w[i];
        assert rows[j] == w[i];
      }
    }
  }

  lemma PairsUniqueConcat(a: seq<IngredientRecipe>, b: seq<IngredientRecipe>)
    requires IngredientPairsUnique(a) && IngredientPairsUnique(b)
    requires forall i, j | 0 <= i < |a| && 0 <= j < |b| :: a[i].recipe != b[j].recipe || a[i].ingredient != b[j].ingredient
    ensures IngredientPairsUnique(a + b)
  {
    forall i, j | 0 <= i < j < |a + b|
      ensures (a + b)[i].recipe != (a + b)[j].recipe || (a + b)[i].ingredient != (a + b)[j].ingredient
    {
      if j < |a| {
      } else if i < |a| {
        assert (a + b)[j] == b[j - |a|];
      } else {
        assert (a + b)[i] == b[i - |a|] && (a + b)[j] == b[j - |a|];
      }
    }
  }

  /** The rows `add_ingredients` produces for checked data keep every
      constraint. Here and below `data` is what the checked validation hands to
      `create` or `update`: every accepted payload yields such a value
      (`ValidatedDataIsStable`). */
  lemma NewRowsValid(store: Store, id: RecipeId, data: RecipeData)
    requires IsValidChecked(data, store) == Success(data)
    ensures AddIngredients(data.ingredients, id, IngredientIds(store)).Success?
    ensures var rows := AddIngredients(data.ingredients, id, IngredientIds(store)).value;
      && AmountsValid(rows)
      && IngredientPairsUnique(rows)
      && forall i | 0 <= i < |rows| :: rows[i].recipe == id && rows[i].ingredient in IngredientIds(store)
  {
    ValidateAccepts(data, IngredientIds(store));
  }

  lemma RecipeIdsAfterUpdate(recipes: seq<Recipe>, id: RecipeId, data: RecipeData)
    requires data.cookingTime >= MinCookingTime
    ensures (set r | r in UpdateFields(recipes, id, data) :: r.id) == (set r | r in recipes :: r.id)
  {
    var u := UpdateFields(recipes, id, data);
    forall r | r in recipes
      ensures r.id in (set r' | r' in u :: r'.id)
    {
      var i :| 0 <= i < |recipes| && recipes[i] == r;
      assert u[i] in u && u[i].id == r.id;
    }
    forall r | r in u
      ensures r.id in (set r' | r' in recipes :: r'.id)
    {
      var i :| 0 <= i < |u| && u[i] == r;
      assert recipes[i] in recipes && recipes[i].id == r.id;
    }
  }

  /** Saving a recipe that passed the checked validation keeps every schema constraint of the store. */
  lemma UpdateKeepsStoreValid(store: Store, id: RecipeId, data: RecipeData)
    requires Valid(store)
    requires id in RecipeIds(store)
    requires IsValidChecked(data, store) == Success(data)
    ensures data.cookingTime >= MinCookingTime
    ensures UpdateRecipe(store, id, data).Success?
    ensures Valid(UpdateRecipe(store, id, data).value)
  {
    NewRowsValid(store, id, data);
    var rows := AddIngredients(data.ingredients, id, IngredientIds(store)).value;
    var s := UpdateRecipe(store, id, data).value;
    var kept := Without(store.ingredientRecipes, id);
    RecipeIdsAfterUpdate(store.recipes, id, data);
    assert RecipeIds(s) == RecipeIds(store);
    KeptRowsValid(store.ingredientRecipes, RecipeIds(store), IngredientIds(store), id);
    PairsUniqueConcat(kept, rows);
    assert s.ingredientRecipes == kept + rows;
    assert forall t | t in data.tags :: t in TagIds(store);
    UpdatedRecipesValid(store.recipes, TagIds(store), id, data);
  }

  /** Clearing one recipe's rows keeps the other rows' constraints. */
  lemma KeptRowsValid(rows: seq<IngredientRecipe>, recipeIds: set<RecipeId>, ingredientIds: set<IngredientId>, id: RecipeId)
    requires IngredientRecipesValid(rows, recipeIds, ingredientIds)
    ensures IngredientRecipesValid(Without(rows, id), recipeIds, ingredientIds)
    ensures forall i | 0 <= i < |Without(rows, id)| :: Without(rows, id)[i].recipe != id
  {
    var kept := Without(rows, id);
    WithoutKeepsUnique(rows, id);
    forall i | 0 <= i < |kept|
      ensures MinAmount <= kept[i].amount <= MaxAmount
      ensures kept[i].recipe in recipeIds && kept[i].ingredient in ingredientIds
      ensures kept[i].recipe != id
    {
      assert kept[i] in rows;
    }
  }

  /** Overwriting one recipe's fields with valid ones keeps the recipe table valid. */
  lemma UpdatedRecipesValid(recipes: seq<Recipe>, tagIds: set<TagId>, id: RecipeId, data: RecipeData)
    requires RecipesValid(recipes, tagIds)
    requires data.cookingTime >= MinCookingTime && |data.name| <= RecipeNameMaxLength
    requires forall t | t in data.tags :: t in tagIds
    ensures RecipesValid(UpdateFields(recipes, id, data), tagIds)
  {
    var u := UpdateFields(recipes, id, data);
    forall i | 0 <= i < |u|
      ensures RecipeValid(u[i], tagIds) && u[i].id == recipes[i].id
    {
    }
  }

  /** Creating a recipe that passed the checked validation keeps every schema constraint of the store. */
  lemma CreateKeepsStoreValid(store: Store, author: UserId, id: RecipeId, data: RecipeData)
    requires Valid(store)
    requires id !in RecipeIds(store)
    requires IsValidChecked(data, store) == Success(data)
    ensures data.cookingTime >= MinCookingTime
    ensures CreateRecipe(store, author, id, data).Success?
    ensures Valid(CreateRecipe(store, author, id, data).value)
  {
    NewRowsValid(store, id, data);
    var rows := AddIngredients(data.ingredients, id, IngredientIds(store)).value;
    var s := CreateRecipe(store, author, id, data).value;
    var old_rows := store.ingredientRecipes;
    assert s.recipes == store.recipes + [NewRecipe(id, author, data)];
    assert RecipeIds(s) == RecipeIds(store) + {id};
    forall i | 0 <= i < |old_rows|
      ensures old_rows[i].recipe != id
    {
      assert old_rows[i].recipe in RecipeIds(store);
    }
    PairsUniqueConcat(old_rows, rows);
    AppendedRecipesValid(store.recipes, TagIds(store), NewRecipe(id, author, data));
  }

  /** Appending a valid recipe with a fresh id keeps the recipe table valid. */
  lemma AppendedRecipesValid(recipes: seq<Recipe>, tagIds: set<TagId>, r: Recipe)
    requires RecipesValid(recipes, tagIds)
    requires RecipeValid(r, tagIds)
    requires forall i | 0 <= i < |recipes| :: recipes[i].id != r.id
    ensures RecipesValid(recipes + [r], tagIds)
  {
    var s := recipes + [r];
    forall i | 0 <= i < |s|
      ensures RecipeValid(s[i], tagIds)
    {
      if i < |recipes| { assert s[i] == recipes[i]; }
    }
  }

  // ---------------------------------------------------------------------
  // A zero amount slips through the unchecked validation

  /** A store with one tag and one ingredient and no recipe yet. */
  const PorridgeStore := Store([Tag(1, "breakfast", "#E26C2D", "breakfast")], [Ingredient(1, "salt", "g")], [], [], [], [], [])

  /** A recipe asking for no salt at all. */
  const PorridgeData := RecipeData([IngredientAmount(1, 0)], [1], "porridge", "boil", 5)

  lemma PorridgeStoreValid()
    ensures Valid(PorridgeStore)
    ensures TagIds(PorridgeStore) == {1} && IngredientIds(PorridgeStore) == {1} && RecipeIds(PorridgeStore) == {}
  {
    assert TagIds(PorridgeStore) == {1};
    assert IngredientIds(PorridgeStore) == {1};
  }

  /** A non-empty run of lower-case letters is not blank, holds no null
      character and is left alone by stripping. */
  lemma LowercaseWord(w: string)
    requires |w| > 0 && forall i | 0 <= i < |w| :: 'a' <= w[i] <= 'z'
    ensures !AllSpace(w) && '\0' !in w && Trim(w) == w
  {
    TrimUnpadded(w);
    assert !IsSpace(w[0]);
  }

  lemma PorridgeFieldsStripped()
    ensures Stripped(PorridgeData) == PorridgeData
    ensures CheckFields(PorridgeData, {1}) == Pass
  {
    LowercaseWord(PorridgeData.name);
    LowercaseWord(PorridgeData.text);
    assert CheckTags(PorridgeData.tags, {1}) == Pass;
  }

  /** With the validation as written, an ingredient amount of 0 is accepted and
      stored, and the store no longer satisfies the schema's amount constraint. */
  lemma ZeroAmountAccepted()
    ensures Valid(PorridgeStore)
    ensures IsValid(PorridgeData, PorridgeStore) == Success(PorridgeData)
    ensures 2 !in RecipeIds(PorridgeStore)
    ensures CreateRecipe(PorridgeStore, 7, 2, PorridgeData).Success?
    ensures !Valid(CreateRecipe(PorridgeStore, 7, 2, PorridgeData).value)
  {
    PorridgeStoreValid();
    PorridgeAccepted();
    PorridgeCreated();
    var s := CreateRecipe(PorridgeStore, 7, 2, PorridgeData).value;
    assert s.ingredientRecipes[0].amount == 0;
  }

  lemma PorridgeAccepted()
    ensures IsValid(PorridgeData, PorridgeStore) == Success(PorridgeData)
  {
    PorridgeStoreValid();
    PorridgeFieldsStripped();
    assert CheckIngredients(PorridgeData.ingredients, {1}, []) == Pass;
  }

  lemma PorridgeCreated()
    ensures CreateRecipe(PorridgeStore, 7, 2, PorridgeData).Success?
    ensures CreateRecipe(PorridgeStore, 7, 2, PorridgeData).value.ingredientRecipes == [IngredientRecipe(1, 2, 0)]
  {
    PorridgeStoreValid();
    assert LookUpIngredients(PorridgeData.ingredients, {1}) == Pass;
    assert forall t | t in PorridgeData.tags :: t in TagIds(PorridgeStore);
  }

  /** The checked validation refuses that same payload. */
  lemma ZeroAmountRefused(store: Store, data: RecipeData)
    requires exists i | 0 <= i < |data.ingredients| :: data.ingredients[i].amount < MinAmount
    ensures IsValidChecked(data, store).Failure?
  {
  }
}

=== FILE: sequences.dfy ===
/** Small facts about sequences shared by the rest of the model. */
module Sequences {

  /** No element occurs twice. */
  predicate Distinct<T(==)>(s: seq<T>) {
    forall i, j | 0 <= i < j < |s| :: s[i] != s[j]
  }

  /** Position of the first occurrence of `x` in `s`, or `|s|` when it does not occur. */
  function IndexOf<T(==)>(s: seq<T>, x: T): (i: nat)
    ensures i <= |s|
    ensures i < |s| ==> s[i] == x
    ensures forall j | 0 <= j < i :: s[j] != x
    ensures i == |s| <==> x !in s
  {
    if |s| == 0 then 0
    else if s[0] == x then 0
    else 1 + IndexOf(s[1..], x)
  }

  /** The three properties of `IndexOf` determine it. */
  lemma IndexOfUnique<T>(s: seq<T>, x: T, i: nat)
    requires i <= |s|
    requires i < |s| ==> s[i] == x
    requires forall j | 0 <= j < i :: s[j] != x
    ensures IndexOf(s, x) == i
  {
  }

  /** Appending never moves an element that already occurs. */
  lemma IndexOfAppend<T>(s: seq<T>, t: seq<T>, x: T)
    requires x in s
    ensures IndexOf(s + t, x) == IndexOf(s, x)
  {
    IndexOfUnique(s + t, x, IndexOf(s, x));
  }

  /** In a sequence without repetitions every element occurs exactly once. */
  lemma {:induction false} DistinctMultiplicity<T>(s: seq<T>, x: T)
    requires Distinct(s)
    ensures multiset(s)[x] == if x in s then 1 else 0
  {
    if |s| > 0 {
      var p := s[..|s| - 1];
      assert s == p + [s[|s| - 1]];
      assert Distinct(p);
      DistinctMultiplicity(p, x);
      if x == s[|s| - 1] {
        assert x !in p;
      }
    }
  }

  /** Two sequences without repetitions that hold the same elements are permutations of each other. */
  lemma DistinctSameElements<T>(s: seq<T>, t: seq<T>)
    requires Distinct(s) && Distinct(t)
    requires forall x :: x in s <==> x in t
    ensures multiset(s) == multiset(t)
  {
    forall x
      ensures multiset(s)[x] == multiset(t)[x]
    {
      DistinctMultiplicity(s, x);
      DistinctMultiplicity(t, x);
    }
  }

  /** Taking out the element at `i` takes one copy of it out of the multiset. */
  lemma MultisetRemove<T>(s: seq<T>, i: nat)
    requires i < |s|
    ensures multiset(s[..i] + s[i + 1..]) == multiset(s) - multiset{s[i]}
  {
    assert s == s[..i] + [s[i]] + s[i + 1..];
  }

  /** Appending a new element keeps a sequence free of repeats. */
  lemma AppendKeepsDistinct<T>(s: seq<T>, x: T)
    requires Distinct(s) && x !in s
    ensures Distinct(s + [x])
  {
    forall i, j | 0 <= i < j < |s + [x]|
      ensures (s + [x])[i] != (s + [x])[j]
    {
      if j == |s| {
        assert (s + [x])[i] in s;
      }
    }
  }
}

=== FILE: shopping_list.dfy ===
/** `download_shopping_cart`: the ingredient rows of every recipe in the user's
    cart are folded into the (name, unit) counter of `Aggregation`, and each
    counter entry is rendered as one line of a plain-text document. */
module ShoppingList {
  import opened Wrappers
  import opened Models
  import opened Aggregation
  import opened Decimal
  import opened Links

  // ---------------------------------------------------------------------
  // Rendering

  /** `"- {name}: {amount} {measurement_unit}\n"` with the amount in decimal. */
  function FormatLine(l: Line): (r: string)
    ensures |r| >= 7 + |l.key.name| + |l.key.unit|
    ensures r[..2] == "- " && r[|r| - 1] == '\n'
  {
    "- " + l.key.name + ": " + NatToString(l.total) + " " + l.key.unit + "\n"
  }

  /** The response body: the rendered lines, one after another, in counter order. */
  function Document(lines: seq<Line>): (r: string)
    ensures |r| >= 7 * |lines|
    ensures r == "" <==> lines == []
  {
    if |lines| == 0 then "" else Document(lines[..|lines| - 1]) + FormatLine(lines[|lines| - 1])
  }

  /** A rendered line reads back: the dash, the name, the colon, the total in
      decimal, then the unit and the line break. */
  lemma FormatLineParts(l: Line)
    ensures var s, n, u := FormatLine(l), |l.key.name|, |l.key.unit|;
      && 4 + n < |s| - u - 2
      && s[..2] == "- "
      && s[2..2 + n] == l.key.name
      && s[2 + n..4 + n] == ": "
      && ParseNat(s[4 + n..|s| - u - 2]) == Some(l.total)
      && s[|s| - u - 2..] == " " + l.key.unit + "\n"
  {
    var name, digits, unit := l.key.name, NatToString(l.total), l.key.unit;
    var head := "- " + name + ": ";
    var tail := " " + unit + "\n";
    var s := FormatLine(l);
    assert s == head + digits + tail;
    assert s[..|head|] == head;
    assert s[|head|..|s| - |tail|] == digits;
    assert s[|s| - |tail|..] == tail;
    ParseNatToString(l.total);
  }

  function Newlines(s: string): nat {
    multiset(s)['\n']
  }

  lemma NewlinesConcat(a: string, b: string)
    ensures Newlines(a + b) == Newlines(a) + Newlines(b)
  {
    assert multiset(a + b) == multiset(a) + multiset(b);
  }

  lemma FormatLineNewlines(l: Line)
    requires '\n' !in l.key.name && '\n' !in l.key.unit
    ensures Newlines(FormatLine(l)) == 1
  {
    var digits := NatToString(l.total);
    assert multiset(digits)['\n'] == 0 by {
      assert forall i | 0 <= i < |digits| :: digits[i] != '\n';
    }
    assert multiset(FormatLine(l)) == multiset("- ") + multiset(l.key.name) + multiset(": ") + multiset(digits)
      + multiset(" ") + multiset(l.key.unit) + multiset("\n");
  }

  lemma DocumentSnoc(lines: seq<Line>)
    requires |lines| > 0
    ensures Document(lines) == Document(lines[..|lines| - 1]) + FormatLine(lines[|lines| - 1])
  {
  }

  /** The line breaks of a document are those of all but its last line plus
      those of its last line. */
  lemma DocumentNewlinesSnoc(lines: seq<Line>)
    requires |lines| > 0
    ensures Newlines(Document(lines)) ==
      Newlines(Document(lines[..|lines| - 1])) + Newlines(FormatLine(lines[|lines| - 1]))
  {
    DocumentSnoc(lines);
    NewlinesConcat(Document(lines[..|lines| - 1]), FormatLine(lines[|lines| - 1]));
  }

  /** When no name or unit holds a line break, the document has exactly one line per counter entry. */
  lemma {:induction false} DocumentLineCount(lines: seq<Line>)
    requires forall i | 0 <= i < |lines| :: '\n' !in lines[i].key.name && '\n' !in lines[i].key.unit
    ensures Newlines(Document(lines)) == |lines|
  {
    if |lines| > 0 {
      var n := |lines| - 1;
      var prefix := lines[..n];
      assert forall i | 0 <= i < n :: prefix[i] == lines[i];
      DocumentLineCount(prefix);
      FormatLineNewlines(lines[n]);
      DocumentNewlinesSnoc(lines);
    }
  }

  // ---------------------------------------------------------------------
  // The query behind the list

  /** Every ingredient row points at an existing ingredient (a foreign key). */
  predicate IngredientsResolve(rows: seq<IngredientRecipe>, ingredients: seq<Ingredient>) {
    forall i | 0 <= i < |rows| :: FindIngredient(ingredients, rows[i].ingredient).Some?
  }

  /** The (name, unit, amount) the view reads off one ingredient row. */
  function ItemOf(row: IngredientRecipe, ingredients: seq<Ingredient>): Item
    requires FindIngredient(ingredients, row.ingredient).Some?
  {
    var g := FindIngredient(ingredients, row.ingredient).value;
    Item(Key(g.name, g.measurementUnit), row.amount)
  }

  /** Some row of one of `recipes` reads as `it`. */
  predicate Yields(rows: seq<IngredientRecipe>, ingredients: seq<Ingredient>, recipes: set<RecipeId>, it: Item)
    requires IngredientsResolve(rows, ingredients)
  {
    exists i | 0 <= i < |rows| :: rows[i].recipe in recipes && it == ItemOf(rows[i], ingredients)
  }

  /** The positions of the rows that belong to one of `recipes`. */
  function ChosenRows(rows: seq<IngredientRecipe>, recipes: set<RecipeId>): set<nat> {
    set i | 0 <= i < |rows| && rows[i].recipe in recipes
  }

  /** The (name, unit, amount) of every ingredient row of a recipe in
      `recipes`, in the row model's default order, newest row first: the table
      holds the rows in the order they were inserted, so the query reads it
      from the end. */
  function Collect(rows: seq<IngredientRecipe>, ingredients: seq<Ingredient>, recipes: set<RecipeId>): (r: seq<Item>)
    requires IngredientsResolve(rows, ingredients)
    ensures |r| == |ChosenRows(rows, recipes)|
    ensures forall it :: it in r <==> Yields(rows, ingredients, recipes, it)
    ensures recipes == {} ==> r == []
    ensures forall it | it in r :: exists row | row in rows :: row.recipe in recipes && row.amount == it.amount
  {
    if |rows| == 0 then []
    else
      var p := rows[..|rows| - 1];
      var last := rows[|rows| - 1];
      ChosenRowsSnoc(rows, recipes);
      CollectSnocItems(rows, ingredients, recipes);
      (if last.recipe in recipes then [ItemOf(last, ingredients)] else []) + Collect(p, ingredients, recipes)
  }

  lemma ChosenRowsSnoc(rows: seq<IngredientRecipe>, recipes: set<RecipeId>)
    requires |rows| > 0
    ensures var n := |rows| - 1;
      |ChosenRows(rows, recipes)| == |ChosenRows(rows[..n], recipes)| + (if rows[n].recipe in recipes then 1 else 0)
  {
    var n := |rows| - 1;
    var p := rows[..n];
    assert forall i | 0 <= i < n :: p[i] == rows[i];
    var a, b := ChosenRows(rows, recipes), ChosenRows(p, recipes);
    if rows[n].recipe in recipes {
      assert a == b + {n};
      assert n !in b;
    } else {
      assert a == b;
    }
  }

  /** The items a row of `rows` yields are those `rows` minus its last row
      yields, and the last row's own item if it is chosen. */
  lemma CollectSnocItems(rows: seq<IngredientRecipe>, ingredients: seq<Ingredient>, recipes: set<RecipeId>)
    requires |rows| > 0 && IngredientsResolve(rows, ingredients)
    ensures var n := |rows| - 1;
      IngredientsResolve(rows[..n], ingredients) &&
      forall it :: Yields(rows, ingredients, recipes, it) <==>
        ((rows[n].recipe in recipes && it == ItemOf(rows[n], ingredients)) || Yields(rows[..n], ingredients, recipes, it))
  {
    var n := |rows| - 1;
    assert forall i | 0 <= i < n :: rows[..n][i] == rows[i];
  }

  /** The recipes in a user's cart. */
  function CartRecipes(carts: seq<Link>, user: UserId): (r: set<RecipeId>)
    ensures forall pk :: pk in r <==> Link(user, pk) in carts
  {
    var r := set l | l in carts && l.user == user :: l.target;
    assert forall pk | Link(user, pk) in carts :: pk in r;
    r
  }

  /** Every ingredient row reachable through the user's cart. */
  function CartItems(store: Store, user: UserId): (r: seq<Item>)
    requires IngredientsResolve(store.ingredientRecipes, store.ingredients)
    ensures |r| == |ChosenRows(store.ingredientRecipes, CartRecipes(store.carts, user))|
    ensures forall it :: it in r <==>
      Yields(store.ingredientRecipes, store.ingredients, CartRecipes(store.carts, user), it)
    ensures CartRecipes(store.carts, user) == {} ==> r == []
  {
    Collect(store.ingredientRecipes, store.ingredients, CartRecipes(store.carts, user))
  }

  /** The counter entries of the user's shopping list. */
  function ShoppingListLines(store: Store, user: UserId): (r: seq<Line>)
    requires IngredientsResolve(store.ingredientRecipes, store.ingredients)
    ensures DistinctKeys(r)
    ensures forall l | l in r :: l.key in ItemKeys(CartItems(store, user)) && l.total == SumFor(CartItems(store, user), l.key)
    ensures forall k | k in ItemKeys(CartItems(store, user)) :: k in LineKeys(r)
  {
    var items := CartItems(store, user);
    AggregateMembership(items);
    AggregateKeys(items);
    Aggregate(items)
  }

  /** The text of `shopping_list.txt` for the user. */
  function DownloadShoppingCart(store: Store, user: UserId): (r: string)
    requires IngredientsResolve(store.ingredientRecipes, store.ingredients)
    ensures r == "" <==> ShoppingListLines(store, user) == []
    ensures |r| >= 7 * |ShoppingListLines(store, user)|
  {
    Document(ShoppingListLines(store, user))
  }

  /** In a store that keeps its constraints every ingredient row resolves. */
  lemma ValidStoreResolves(store: Store)
    requires Valid(store)
    ensures IngredientsResolve(store.ingredientRecipes, store.ingredients)
  {
    forall i | 0 <= i < |store.ingredientRecipes|
      ensures FindIngredient(store.ingredients, store.ingredientRecipes[i].ingredient).Some?
    {
      var id := store.ingredientRecipes[i].ingredient;
      assert id in IngredientIds(store);
      var g :| g in store.ingredients && g.id == id;
    }
  }

  lemma {:induction false} CollectNone(rows: seq<IngredientRecipe>, ingredients: seq<Ingredient>)
    requires IngredientsResolve(rows, ingredients)
    ensures Collect(rows, ingredients, {}) == []
  {
    if |rows| > 0 {
      CollectNone(rows[..|rows| - 1], ingredients);
    }
  }

  /** A user whose cart is empty downloads an empty list. */
  lemma EmptyCartEmptyList(store: Store, user: UserId)
    requires IngredientsResolve(store.ingredientRecipes, store.ingredients)
    requires forall i | 0 <= i < |store.carts| :: store.carts[i].user != user
    ensures ShoppingListLines(store, user) == []
    ensures DownloadShoppingCart(store, user) == ""
  {
    assert CartRecipes(store.carts, user) == {};
    CollectNone(store.ingredientRecipes, store.ingredients);
  }

  /** The rows of the recipes in S + {pk} sum, key by key, to those of S plus those of pk. */
  lemma {:induction false} CollectSplit(rows: seq<IngredientRecipe>, ingredients: seq<Ingredient>, recipes: set<RecipeId>, pk: RecipeId, k: Key)
    requires IngredientsResolve(rows, ingredients)
    requires pk !in recipes
    ensures SumFor(Collect(rows, ingredients, recipes + {pk}), k)
         == SumFor(Collect(rows, ingredients, recipes), k) + SumFor(Collect(rows, ingredients, {pk}), k)
  {
    if |rows| > 0 {
      var p := rows[..|rows| - 1];
      var last := rows[|rows| - 1];
      var item := [ItemOf(last, ingredients)];
      CollectSplit(p, ingredients, recipes, pk, k);
      SumForConcat(if last.recipe in recipes + {pk} then item else [], Collect(p, ingredients, recipes + {pk}), k);
      SumForConcat(if last.recipe in recipes then item else [], Collect(p, ingredients, recipes), k);
      SumForConcat(if last.recipe == pk then item else [], Collect(p, ingredients, {pk}), k);
    }
  }

  /** Putting recipe pk in the cart raises each line of the user's list by
      exactly pk's own amount for that (name, unit) key. */
  lemma AddToCartAddsRecipe(store: Store, user: UserId, pk: RecipeId, k: Key)
    requires IngredientsResolve(store.ingredientRecipes, store.ingredients)
    requires AddToCart(store, user, pk).Success?
    ensures CountOf(ShoppingListLines(AddToCart(store, user, pk).value, user), k)
         == CountOf(ShoppingListLines(store, user), k) + SumFor(Collect(store.ingredientRecipes, store.ingredients, {pk}), k)
  {
    var store' := AddToCart(store, user, pk).value;
    assert store'.carts == store.carts + [Link(user, pk)];
    assert CartRecipes(store'.carts, user) == CartRecipes(store.carts, user) + {pk};
    assert pk !in CartRecipes(store.carts, user);
    CollectSplit(store.ingredientRecipes, store.ingredients, CartRecipes(store.carts, user), pk, k);
    AggregateCounts(CartItems(store', user));
    AggregateCounts(CartItems(store, user));
  }

  /** Another user's cart, and therefore their list, is untouched. */
  lemma AddToCartOtherUsers(store: Store, user: UserId, other: UserId, pk: RecipeId)
    requires IngredientsResolve(store.ingredientRecipes, store.ingredients)
    requires AddToCart(store, user, pk).Success?
    requires other != user
    ensures DownloadShoppingCart(AddToCart(store, user, pk).value, other) == DownloadShoppingCart(store, other)
  {
    var store' := AddToCart(store, user, pk).value;
    assert store'.carts == store.carts + [Link(user, pk)];
    assert CartRecipes(store'.carts, other) == CartRecipes(store.carts, other);
  }

  /** Adding a recipe to the cart and taking it out again gives back the same list. */
  lemma CartRoundTrip(store: Store, user: UserId, pk: RecipeId)
    requires IngredientsResolve(store.ingredientRecipes, store.ingredients)
    requires AddToCart(store, user, pk).Success?
    ensures RemoveFromCart(AddToCart(store, user, pk).value, user, pk) == store
    ensures DownloadShoppingCart(RemoveFromCart(AddToCart(store, user, pk).value, user, pk), user)
         == DownloadShoppingCart(store, user)
  {
    CreateThenDelete(store.carts, RecipeIds(store), user, pk);
  }
}

=== FILE: subscriptions.dfy ===
/** Subscriptions to authors: the subscribe and unsubscribe action of the user
    view set, the subscription serializer's `validate`, and its `recipes` and
    `recipes_count` fields with the `recipes_limit` query parameter. */
module Subscriptions {
  import opened Wrappers
  import opened Sequences
  import opened Models
  import opened Decimal
  import opened Links

  /** No user is subscribed to themself. */
  predicate NoSelfSubscriptions(subs: seq<Link>) {
    forall i | 0 <= i < |subs| :: subs[i].user != subs[i].target
  }

  // ---------------------------------------------------------------------
  // The subscribe action

  /** POST on the subscribe action as written: the author is looked up (404 when
      missing) and the row is inserted straight away; the serializer's
      `validate` is never reached, so nothing stops a user subscribing to themself. */
  function SubscribeAsWritten(store: Store, users: set<UserId>, user: UserId, author: UserId): (r: Result<Store, LinkError>)
    ensures r.Success? <==> author in users && Link(user, author) !in store.subscriptions
    ensures r.Success? ==> r.value == store.(subscriptions := store.subscriptions + [Link(user, author)])
  {
    match CreateInstance(store.subscriptions, users, user, author)
    case Success(subs) => Success(store.(subscriptions := subs))
    case Failure(e) => Failure(e)
  }

  /** The check `validate` intends: a user may not subscribe to themself. */
  function ValidateSubscription(user: UserId, author: UserId): (r: Outcome<LinkError>)
    ensures r.Fail? <==> user == author
    ensures r.Fail? ==> r.error == SelfSubscription
  {
    if user == author then Fail(SelfSubscription) else Pass
  }

  /** The subscribe action with `validate` applied between the lookup and the insert. */
  function Subscribe(store: Store, users: set<UserId>, user: UserId, author: UserId): (r: Result<Store, LinkError>)
    ensures r.Success? <==> author in users && user != author && Link(user, author) !in store.subscriptions
    ensures author !in users ==> r == Failure(NotFound)
    ensures author in users && user == author ==> r == Failure(SelfSubscription)
    ensures r.Success? ==> r.value == store.(subscriptions := store.subscriptions + [Link(user, author)])
  {
    if author !in users then Failure(NotFound)
    else
      match ValidateSubscription(user, author)
      case Fail(e) => Failure(e)
      case Pass => SubscribeAsWritten(store, users, user, author)
  }

  /** DELETE on the subscribe action: 404 for an unknown author, otherwise every
      matching row is removed and a missing row is not an error. */
  function Unsubscribe(store: Store, users: set<UserId>, user: UserId, author: UserId): (r: Result<Store, LinkError>)
    ensures r.Success? <==> author in users
    ensures author !in users ==> r == Failure(NotFound)
    ensures r.Success? ==> r.value.(subscriptions := store.subscriptions) == store
    ensures r.Success? ==> Link(user, author) !in r.value.subscriptions
    ensures r.Success? ==> forall x | x != Link(user, author) :: x in r.value.subscriptions <==> x in store.subscriptions
    ensures r.Success? ==> forall x | x != Link(user, author) ::
      multiset(r.value.subscriptions)[x] == multiset(store.subscriptions)[x]
  {
    if author !in users then Failure(NotFound)
    else
      var subs := DeleteInstance(store.subscriptions, user, author);
      forall x | x != Link(user, author)
        ensures x in subs <==> x in store.subscriptions
      {
        DeleteKeepsOthers(store.subscriptions, user, author, x);
      }
      Success(store.(subscriptions := subs))
  }

  /** As written, any existing user can subscribe to themself, and the table
      then holds a self-subscription. */
  lemma SelfSubscriptionAccepted(store: Store, users: set<UserId>, user: UserId)
    requires user in users
    requires Link(user, user) !in store.subscriptions
    ensures SubscribeAsWritten(store, users, user, user).Success?
    ensures !NoSelfSubscriptions(SubscribeAsWritten(store, users, user, user).value.subscriptions)
  {
    var subs := SubscribeAsWritten(store, users, user, user).value.subscriptions;
    assert subs[|subs| - 1] == Link(user, user);
  }

  /** The checked action never refuses what the action as written accepts, except a self-subscription. */
  lemma SubscribeAgreesOtherwise(store: Store, users: set<UserId>, user: UserId, author: UserId)
    requires user != author
    ensures Subscribe(store, users, user, author) == SubscribeAsWritten(store, users, user, author)
  {
  }

  /** Subscribing and unsubscribing keep the table free of repeated pairs and of
      self-subscriptions. */
  lemma SubscriptionsPreserveInvariants(store: Store, users: set<UserId>, user: UserId, author: UserId)
    requires Distinct(store.subscriptions) && NoSelfSubscriptions(store.subscriptions)
    ensures Subscribe(store, users, user, author).Success? ==>
      var s := Subscribe(store, users, user, author).value.subscriptions;
      Distinct(s) && NoSelfSubscriptions(s)
    ensures Unsubscribe(store, users, user, author).Success? ==>
      var s := Unsubscribe(store, users, user, author).value.subscriptions;
      Distinct(s) && NoSelfSubscriptions(s)
  {
    if Subscribe(store, users, user, author).Success? {
      AppendKeepsDistinct(store.subscriptions, Link(user, author));
    }
    if author in users {
      DeletePreservesDistinct(store.subscriptions, user, author);
      var s := Unsubscribe(store, users, user, author).value.subscriptions;
      forall i | 0 <= i < |s|
        ensures s[i].user != s[i].target
      {
        assert s[i] in store.subscriptions;
      }
    }
  }

  /** Subscribing and then unsubscribing gives back the store. */
  lemma SubscribeThenUnsubscribe(store: Store, users: set<UserId>, user: UserId, author: UserId)
    requires Subscribe(store, users, user, author).Success?
    ensures Unsubscribe(Subscribe(store, users, user, author).value, users, user, author) == Success(store)
  {
    CreateThenDelete(store.subscriptions, users, user, author);
  }

  // ---------------------------------------------------------------------
  // validate, as written

  /** What the serializer holds as `self.instance`: in the subscribe action it
      is the freshly created Subscribe row, never a user. */
  datatype Instance =
    | UserInstance(pk: UserId)
    | SubscribeInstance(pk: nat, user: UserId, author: UserId)

  /** `validate` as written compares the request user with `self.instance`;
      model instances are equal only when they are of the same model and have
      the same primary key. */
  function ValidateAsWritten(requestUser: UserId, instance: Instance): (r: Outcome<LinkError>)
    ensures r.Fail? <==> instance.UserInstance? && instance.pk == requestUser
  {
    if instance == UserInstance(requestUser) then Fail(SelfSubscription) else Pass
  }

  /** Even if it ran, the comparison as written passes a self-subscription row. */
  lemma ValidateAsWrittenMissesSelf(user: UserId, pk: nat)
    ensures ValidateAsWritten(user, SubscribeInstance(pk, user, user)) == Pass
    ensures ValidateSubscription(user, user) == Fail(SelfSubscription)
  {
  }

  // ---------------------------------------------------------------------
  // recipes and recipes_count

  /** `Recipe.objects.filter(author=...)`: the author's recipes in the
      model's default order, newest publication first. The table holds the
      recipes in the order they were created, so the query reads it from the end. */
  function AuthorRecipes(recipes: seq<Recipe>, author: UserId): (r: seq<Recipe>)
    ensures |r| <= |recipes|
    ensures forall x :: x in r <==> x in recipes && x.author == author
  {
    if |recipes| == 0 then []
    else
      var p := recipes[..|recipes| - 1];
      var last := recipes[|recipes| - 1];
      assert recipes == p + [last];
      (if last.author == author then [last] else []) + AuthorRecipes(p, author)
  }

  /** A recipe created after the others is the first of its author's list,
      ahead of the ones already there. */
  lemma {:induction false} NewestRecipeFirst(recipes: seq<Recipe>, r: Recipe)
    ensures AuthorRecipes(recipes + [r], r.author) == [r] + AuthorRecipes(recipes, r.author)
    ensures forall a | a != r.author :: AuthorRecipes(recipes + [r], a) == AuthorRecipes(recipes, a)
  {
    assert (recipes + [r])[..|recipes|] == recipes;
  }

  /** So `recipes_limit=1` shows the newest recipe of the author. */
  lemma LimitOneShowsNewest(recipes: seq<Recipe>, r: Recipe)
    ensures GetRecipes(recipes + [r], r.author, Some(NatToString(1))) == Success([r])
  {
    NewestRecipeFirst(recipes, r);
    ParseIntOfRendering(1);
    var all := AuthorRecipes(recipes + [r], r.author);
    assert all[..1] == [r];
  }

  /** `get_recipes_count`: how many recipes the author has. */
  function RecipesCount(recipes: seq<Recipe>, author: UserId): (n: nat)
    ensures n <= |recipes|
    ensures n == 0 <==> forall i | 0 <= i < |recipes| :: recipes[i].author != author
  {
    if |recipes| == 0 then 0
    else RecipesCount(recipes[..|recipes| - 1], author) + (if recipes[|recipes| - 1].author == author then 1 else 0)
  }

  lemma {:induction false} RecipesCountIsLength(recipes: seq<Recipe>, author: UserId)
    ensures RecipesCount(recipes, author) == |AuthorRecipes(recipes, author)|
  {
    if |recipes| > 0 {
      RecipesCountIsLength(recipes[..|recipes| - 1], author);
    }
  }

  datatype LimitError =
    | InvalidLimit   // `int()` refuses the text
    | NegativeLimit  // a negative slice bound, which the query set refuses

  /** `get_recipes`: the author's recipes, newest first, cut to the first
      `recipes_limit` when that parameter is present and not empty. */
  function GetRecipes(recipes: seq<Recipe>, author: UserId, limit: Option<string>): (r: Result<seq<Recipe>, LimitError>)
    ensures r.Failure? <==>
      (limit.Some? && limit.value != "" && (ParseInt(limit.value).None? || ParseInt(limit.value).value < 0))
    ensures r.Success? ==>
      && |r.value| <= |AuthorRecipes(recipes, author)|
      && r.value == AuthorRecipes(recipes, author)[..|r.value|]
    ensures r.Success? ==> forall i | 0 <= i < |r.value| :: r.value[i] in recipes && r.value[i].author == author
    ensures r.Success? && limit.Some? && limit.value != "" ==>
      var c := |AuthorRecipes(recipes, author)|;
      var n := ParseInt(limit.value).value;
      |r.value| == if n < c then n else c
    ensures r.Success? && (limit.None? || limit.value == "") ==> r.value == AuthorRecipes(recipes, author)
  {
    var all := AuthorRecipes(recipes, author);
    if limit.None? || limit.value == "" then Success(all)
    else
      match ParseInt(limit.value)
      case None => Failure(InvalidLimit)
      case Some(n) =>
        if n < 0 then Failure(NegativeLimit)
        else if n < |all| then Success(all[..n])
        else Success(all)
  }

  /** Without a limit every one of the author's recipes is listed. */
  lemma GetRecipesUnlimited(recipes: seq<Recipe>, author: UserId)
    ensures GetRecipes(recipes, author, None).Success?
    ensures |GetRecipes(recipes, author, None).value| == RecipesCount(recipes, author)
    ensures GetRecipes(recipes, author, Some("")) == GetRecipes(recipes, author, None)
  {
    RecipesCountIsLength(recipes, author);
  }

  /** With `recipes_limit=n` the list has min(n, count) recipes. */
  lemma GetRecipesLimited(recipes: seq<Recipe>, author: UserId, n: nat)
    ensures GetRecipes(recipes, author, Some(NatToString(n))).Success?
    ensures var c := RecipesCount(recipes, author);
      |GetRecipes(recipes, author, Some(NatToString(n))).value| == if n < c then n else c
  {
    ParseIntOfRendering(n);
    RecipesCountIsLength(recipes, author);
  }

  /** A negative limit is an error. */
  lemma GetRecipesNegative(recipes: seq<Recipe>, author: UserId, n: nat)
    requires n > 0
    ensures GetRecipes(recipes, author, Some("-" + NatToString(n))) == Failure(NegativeLimit)
  {
    ParseIntOfRendering(n);
  }

  /** A larger limit lists a longer prefix of the same list. */
  lemma GetRecipesMonotone(recipes: seq<Recipe>, author: UserId, m: nat, n: nat)
    requires m <= n
    ensures var a := GetRecipes(recipes, author, Some(NatToString(m))).value;
            var b := GetRecipes(recipes, author, Some(NatToString(n))).value;
      |a| <= |b| && a == b[..|a|]
  {
    GetRecipesLimited(recipes, author, m);
    GetRecipesLimited(recipes, author, n);
  }
}

=== FILE: text.dfy ===
/** Whitespace trimming as the serializer's text fields apply it: Python's
    `str.strip()` with no argument, which removes from both ends every
    character `str.isspace()` accepts. */
module Text {

  /** The characters Python's `str.isspace()` accepts. */
  predicate IsSpace(c: char) {
    || c == ' ' || c == '\t' || c == '\n' || c == '\r'
    || c == '\U{B}' || c == '\U{C}'
    || ('\U{1C}' <= c <= '\U{1F}')
    || c == '\U{85}' || c == '\U{A0}' || c == '\U{1680}'
    || ('\U{2000}' <= c <= '\U{200A}')
    || c == '\U{2028}' || c == '\U{2029}' || c == '\U{202F}' || c == '\U{205F}' || c == '\U{3000}'
  }

  /** Every character of `s` is whitespace (so `s` is blank once stripped). */
  predicate AllSpace(s: string) {
    forall k | 0 <= k < |s| :: IsSpace(s[k])
  }

  /** `s` neither starts nor ends with whitespace. */
  predicate Unpadded(s: string) {
    s == [] || (!IsSpace(s[0]) && !IsSpace(s[|s| - 1]))
  }

  /** How many whitespace characters `s` starts with. */
  function LeadingSpaces(s: string): (n: nat)
    ensures n <= |s|
    ensures forall k | 0 <= k < n :: IsSpace(s[k])
    ensures n == |s| || !IsSpace(s[n])
  {
    if |s| > 0 && IsSpace(s[0]) then
      var m := LeadingSpaces(s[1..]);
      assert forall k | 1 <= k < 1 + m :: s[k] == s[1..][k - 1];
      1 + m
    else 0
  }

  /** How many whitespace characters `s` ends with. */
  function TrailingSpaces(s: string): (n: nat)
    ensures n <= |s|
    ensures forall k | |s| - n <= k < |s| :: IsSpace(s[k])
    ensures n == |s| || !IsSpace(s[|s| - n - 1])
  {
    if |s| > 0 && IsSpace(s[|s| - 1]) then
      var m := TrailingSpaces(s[..|s| - 1]);
      1 + m
    else 0
  }

  /** `s.strip()`: `s` without its leading and trailing whitespace. What is
      kept is the run of `s` after its leading whitespace, and everything after
      that run is whitespace too. */
  function Trim(s: string): (r: string)
    ensures |r| <= |s|
    ensures r == [] <==> AllSpace(s)
    ensures Unpadded(r)
    ensures LeadingSpaces(s) + |r| <= |s|
    ensures r == s[LeadingSpaces(s)..LeadingSpaces(s) + |r|]
    ensures AllSpace(s[LeadingSpaces(s) + |r|..])
  {
    var a := LeadingSpaces(s);
    var t := s[a..];
    var n := TrailingSpaces(t);
    var r := t[..|t| - n];
    TrimKept(s, a, t, n, r);
    TrimEnds(s, a, t, n, r);
    r
  }

  /** What `Trim` keeps is a run of `s`, and only whitespace follows it. */
  lemma TrimKept(s: string, a: nat, t: string, n: nat, r: string)
    requires a == LeadingSpaces(s) && t == s[a..] && n == TrailingSpaces(t) && r == t[..|t| - n]
    ensures r == s[a..a + |r|]
    ensures AllSpace(s[a + |r|..])
  {
    assert t[|t| - n..] == s[a + |r|..];
  }

  /** What `Trim` keeps is empty only for a blank text, and has no edge whitespace. */
  lemma TrimEnds(s: string, a: nat, t: string, n: nat, r: string)
    requires a == LeadingSpaces(s) && t == s[a..] && n == TrailingSpaces(t) && r == t[..|t| - n]
    ensures r == [] <==> AllSpace(s)
    ensures Unpadded(r)
  {
    if a < |s| {
      assert t[0] == s[a];
      assert n < |t|;
      assert r[0] == s[a];
      assert r[|r| - 1] == t[|t| - n - 1];
      assert !IsSpace(s[a]);
    } else {
      assert r == [] && AllSpace(s);
    }
  }

  /** Stripping twice strips nothing more. */
  lemma TrimIdempotent(s: string)
    ensures Trim(Trim(s)) == Trim(s)
  {
    var r := Trim(s);
    if r != [] {
      assert LeadingSpaces(r) == 0;
      assert TrailingSpaces(r) == 0;
    }
  }

  /** A text with no whitespace at either end is left as it is. */
  lemma TrimUnpadded(s: string)
    requires Unpadded(s)
    ensures Trim(s) == s
  {
    if s != [] {
      assert LeadingSpaces(s) == 0;
      assert TrailingSpaces(s) == 0;
    }
  }

  /** Stripping adds no character: one absent from the text stays absent. */
  lemma TrimKeepsAbsent(s: string, c: char)
    requires c !in s
    ensures c !in Trim(s)
  {
    var a := LeadingSpaces(s);
    var r := Trim(s);
    assert r == s[a..a + |r|];
  }

  /** A text that is not blank strips to a non-blank text that stripping
      leaves alone. */
  lemma TrimStable(s: string)
    requires !AllSpace(s)
    ensures var t := Trim(s);
      && 0 < |t| && Unpadded(t)
      && !AllSpace(t) && Trim(t) == t
  {
    TrimIdempotent(s);
  }
}

=== FILE: viewer_flags.dfy ===
/** The per-viewer flags of the serializers: `is_subscribed` on a user,
    `is_favorited` and `is_in_shopping_cart` on a recipe. An anonymous viewer
    sees every flag false; an authenticated one sees whether the row exists. */
module ViewerFlags {
  import opened Models
  import opened Links
  import Subscriptions

  datatype Viewer = Anonymous | Authenticated(id: UserId)

  /** `.filter(user=..., <target>=...).exists()`: a scan for the pair. */
  function HasLink(table: seq<Link>, user: UserId, target: nat): (r: bool)
    ensures r <==> Link(user, target) in table
  {
    if |table| == 0 then false
    else
      assert table == table[..|table| - 1] + [table[|table| - 1]];
      table[|table| - 1] == Link(user, target) || HasLink(table[..|table| - 1], user, target)
  }

  function Flag(table: seq<Link>, viewer: Viewer, target: nat): (r: bool)
    ensures r <==> viewer.Authenticated? && Link(viewer.id, target) in table
  {
    match viewer
    case Anonymous => false
    case Authenticated(user) => HasLink(table, user, target)
  }

  /** `is_subscribed` of a user as shown to `viewer`. */
  function IsSubscribed(store: Store, viewer: Viewer, author: UserId): (r: bool)
    ensures viewer.Anonymous? ==> !r
    ensures viewer.Authenticated? ==> (r <==> Link(viewer.id, author) in store.subscriptions)
  {
    Flag(store.subscriptions, viewer, author)
  }

  /** `is_favorited` of a recipe as shown to `viewer`. */
  function IsFavorited(store: Store, viewer: Viewer, recipe: RecipeId): (r: bool)
    ensures viewer.Anonymous? ==> !r
    ensures viewer.Authenticated? ==> (r <==> Link(viewer.id, recipe) in store.favorites)
  {
    Flag(store.favorites, viewer, recipe)
  }

  /** `is_in_shopping_cart` of a recipe as shown to `viewer`. */
  function IsInShoppingCart(store: Store, viewer: Viewer, recipe: RecipeId): (r: bool)
    ensures viewer.Anonymous? ==> !r
    ensures viewer.Authenticated? ==> (r <==> Link(viewer.id, recipe) in store.carts)
  {
    Flag(store.carts, viewer, recipe)
  }

  /** The cart flag follows the shopping_cart action: on after a successful
      add, off after a removal, and nobody else's flag moves. */
  lemma CartFlagFollowsActions(store: Store, user: UserId, pk: RecipeId, other: Viewer, recipe: RecipeId)
    requires other != Authenticated(user) || recipe != pk
    ensures AddToCart(store, user, pk).Success? ==>
      && IsInShoppingCart(AddToCart(store, user, pk).value, Authenticated(user), pk)
      && IsInShoppingCart(AddToCart(store, user, pk).value, other, recipe) == IsInShoppingCart(store, other, recipe)
    ensures !IsInShoppingCart(RemoveFromCart(store, user, pk), Authenticated(user), pk)
    ensures IsInShoppingCart(RemoveFromCart(store, user, pk), other, recipe) == IsInShoppingCart(store, other, recipe)
  {
    if other.Authenticated? {
      DeleteKeepsOthers(store.carts, user, pk, Link(other.id, recipe));
    }
  }

  /** The favourite flag follows the favorite action in the same way. */
  lemma FavoriteFlagFollowsActions(store: Store, user: UserId, pk: RecipeId, other: Viewer, recipe: RecipeId)
    requires other != Authenticated(user) || recipe != pk
    ensures AddFavorite(store, user, pk).Success? ==>
      && IsFavorited(AddFavorite(store, user, pk).value, Authenticated(user), pk)
      && IsFavorited(AddFavorite(store, user, pk).value, other, recipe) == IsFavorited(store, other, recipe)
    ensures !IsFavorited(RemoveFavorite(store, user, pk), Authenticated(user), pk)
    ensures IsFavorited(RemoveFavorite(store, user, pk), other, recipe) == IsFavorited(store, other, recipe)
  {
    if other.Authenticated? {
      DeleteKeepsOthers(store.favorites, user, pk, Link(other.id, recipe));
    }
  }

  /** The subscription flag is on after subscribing and off after unsubscribing. */
  lemma SubscribedFlagFollowsActions(store: Store, users: set<UserId>, user: UserId, author: UserId)
    ensures Subscriptions.Subscribe(store, users, user, author).Success? ==>
      IsSubscribed(Subscriptions.Subscribe(store, users, user, author).value, Authenticated(user), author)
    ensures Subscriptions.Unsubscribe(store, users, user, author).Success? ==>
      !IsSubscribed(Subscriptions.Unsubscribe(store, users, user, author).value, Authenticated(user), author)
  {
  }
}

=== FILE: wrappers.dfy ===
/** Failure-carrying datatypes used wherever the backend raises an error
    (an HTTP 404, a validation error, a database integrity error). */
module Wrappers {

  /** A value that may be absent. */
  datatype Option<+T> = None | Some(value: T)

  /** Either a computed value or the error the backend would raise instead. */
  datatype Result<+T, +E> = Success(value: T) | Failure(error: E)

  /** A check that either passes or reports an error, carrying no value. */
  datatype Outcome<+E> = Pass | Fail(error: E)
}
